=== FILE: README.md ===
# MeetAutomation, modelled in Dafny

MeetAutomation is a scheduled job. It logs into a meetings web application and opens the
failed-meetings page. It picks a reporting window ending today in the page's date picker,
then reads every page of the failed-meetings table. The rows go into a spreadsheet, which
is mailed to a fixed receiver. When the page reports no failed meetings, a mail is still
sent, but it carries no part: the notice the mailer computes is never attached (see
Findings). The model sends that notice as intended. This project models the deterministic core of that job as pure Dafny functions
and methods, and proves what they compute.

| module | file | what it models |
|---|---|---|
| `Results` | results.dfy | the exceptions the core can raise; `Option`, `Result` |
| `Text` | text.dfy | ASCII digits and whitespace, decimal and zero-padded numerals, `str.strip` |
| `Calendar` | calendar.dfy | Python's `datetime.date`: years 1..9999, day numbers, shifting by days, `weekday()`, `str(date)` |
| `Entities` | entities.dfy | a meeting record, the date window, the byte buffer, the spreadsheet table |
| `DateSelect` | date_select.dfy | `select_date`: the target date, the ordinal suffix, the day label, the month header, the window |
| `Summary` | summary.dfy | the first match of `(\d+)-(\d+)\s+of\s+(\d+)` in the table's summary text |
| `Paging` | paging.dfy | page size, page count by ceiling division, and the click/scrape schedule |
| `Extract` | extract.dfy | `print_pagination_info`, the page loop of `go_through_all_pages`, `convert_to_excel` |
| `Email` | email.dfy | the message `send_excel_email` composes: headers, file name, parts |
| `Job` | job.dfy | `run`: the order of the steps, and what an exception does to it |

The browser is an input value. `Extract.Screen` says whether the "No failed meetings found"
marker is showing, what the summary text is, and which rows the table shows. It also says
which rows appear after each numbered page control is clicked. A control missing from that
map is a locator timeout. Today's date is a parameter. The spreadsheet writer is a
parameter `encode` from the table to bytes.

## Model

| member | source | states |
|---|---|---|
| `Calendar.ShiftDays` | app.py:71 | `date + timedelta(days=k)`, where app.py:71 has `k = -days_before`: succeeds exactly when the result lies in years 1..9999, else `OverflowError`; the result is a valid date exactly `k` day numbers away, and its weekday moves by `k` modulo 7 |
| `Calendar.Walk` | app.py:71 | walking `k` single days lands on the valid date whose day number is `k` more |
| `Calendar.PrevDay` | app.py:71 | the day before a date is valid and has the day number one less |
| `Calendar.NextDay` | app.py:71 | the day after a date is valid and has the day number one more |
| `Calendar.Weekday` | app.py:75 | the weekday index lies in 0..6 |
| `Calendar.OrdinalOrder` | app.py:71 | calendar order and day-number order agree, in both directions |
| `Calendar.OrdinalInjective` | app.py:71 | two valid dates with the same day number are the same date |
| `Calendar.OrdinalRange` | app.py:71 | every representable date has a day number in 1..3652059 |
| `Calendar.Iso` | app.py:96 | `str(date)` is ten characters: four digits, `-`, two digits, `-`, two digits |
| `Calendar.IsoRoundTrip` | app.py:96 | the `YYYY-MM-DD` text of a date reads back as that date |
| `Calendar.IsoInjective` | app.py:96 | different dates never print the same |
| `DateSelect.OrdinalSuffix` | app.py:79-83 | the list index `day % 10 - 1` stays in range for every day 1..31; the suffix is "st" exactly for 1, 21, 31, "nd" for 2, 22, "rd" for 3, 23, "th" otherwise, and agrees with the general English ordinal rule |
| `DateSelect.SelectDate` | app.py:69-96 | fails with `OverflowError` exactly when `today - days_before` leaves years 1..9999; otherwise the target is a valid date that many day numbers before today, the window is the ISO texts of target and today, and the label and header are those of the target |
| `DateSelect.Label` | app.py:74-85 | the day control's label, `Choose <weekday>, <month> <day><suffix>, <year>`; `LabelRoundTrip` reads it back |
| `DateSelect.HeaderText` | app.py:76-86 | the month header, `<month> <year>`; `HeaderRoundTrip` reads it back |
| `DateSelect.MonthClicks` | app.py:88-91 | the month-stepping loop, which opens on today's month and only steps back, taken to stop when the shown month equals the target's: it ends exactly when the target's month is not after today's |
| `DateSelect.ShortYearHeaderIsPrefix` | app.py:86-90 | where the model's month equality and the source's substring stop test part: the header "June 202" is a prefix of "June 2025", yet `MonthClicks` counts 21876 clicks |
| `DateSelect.MonthClicksFirst` | app.py:90-91 | after `MonthClicks` clicks the target's month shows and after no fewer does it; when the target's month is later, no number of clicks shows it |
| `DateSelect.NonNegativeOffsetReachesMonth` | app.py:71-91 | a non-negative offset always lands in a month the loop reaches |
| `DateSelect.TargetNotAfterToday` | app.py:71 | a non-negative offset never picks a date after today; a positive one picks a date strictly before |
| `DateSelect.WindowDeterminesDates` | app.py:96 | the two returned strings read back as the target and today |
| `DateSelect.LabelRoundTrip` | app.py:74-85 | the label `Choose <weekday>, <month> <day><suffix>, <year>` reads back as the target's weekday, month, unpadded day, suffix and year |
| `DateSelect.HeaderRoundTrip` | app.py:86 | the header `<month> <year>` reads back as the target's month and year |
| `DateSelect.LabelIdentifiesDate` | app.py:85 | two dates have the same label if and only if they are the same date |
| `DateSelect.HeaderIdentifiesMonth` | app.py:86 | two dates have the same header if and only if they share month and year |
| `DateSelect.ThursdayExample` | app.py:75-86 | 2025-09-18 gives "Choose Thursday, September 18th, 2025" and "September 2025", built from the values in the source's comments ("Thursday", "September", "September 2025") |
| `Summary.MatchAt` | app.py:129 | the regular expression tried at one position; a match it finds starts there (`MatchAtSound` and `MatchAtFindsOccurrence` pin down the rest) |
| `Summary.MatchAtSound` | app.py:129 | a match the engine finds at a position is an occurrence of the pattern there whose last number takes every digit that follows |
| `Summary.MatchAtFindsOccurrence` | app.py:129 | every occurrence of the pattern at a position is found at that position |
| `Summary.Search` | app.py:129 | what `re.search` returns is the match at its own position, from the start position on |
| `Summary.SearchFirst` | app.py:129 | `re.search` finds a match whenever some position has one, and that match starts no later than the position |
| `Summary.ParseSummary` | app.py:129-132 | the only error is the `ValueError` for a text without a match; when and what it reads are stated by the three lemmas below |
| `Summary.ParseFailsIffNoOccurrence` | app.py:129-131 | the summary is refused with `ValueError` exactly when the pattern occurs nowhere in it |
| `Summary.ParseTakesLeftmost` | app.py:129-132 | whenever the pattern occurs, parsing succeeds, starts no later than that occurrence, and reads its three groups when it is the first one |
| `Summary.ParseRendered` | app.py:127-132 | `<first>-<last> of <total>` after digit-free text and before a non-digit reads back as its three numbers |
| `Summary.ShowingExample` | app.py:128-132 | "Showing 21-30 of 43" reads as 21, 30, 43 |
| `Paging.PerPage` | app.py:133 | `end - start + 1`, used by `PageCount` and the examples below |
| `Paging.Schedule` | app.py:140-153 | the clicks and scrapes of the page loop; `ScheduleScrapeCount` and `ScheduleClickOrder` state its shape |
| `Paging.CeilDiv` | app.py:134 | for a positive divisor, the least `q` with `q * b >= a`; for a negative one, the least `q` with `q * b <= a` |
| `Paging.PageCount` | app.py:133-134 | the page count fails with `ZeroDivisionError` exactly when `end - start + 1` is zero; for a positive page size it is the least non-negative `k` with `k * per_page >= total`; for a negative page size it is at most 0; a total of 0 gives 0 pages |
| `Paging.PartialPageExample` | app.py:128-134 | 21-30 of 43 gives 10 rows a page and 5 pages |
| `Paging.SinglePageExample` | app.py:133-134 | 1-43 of 43 gives 43 rows a page and 1 page |
| `Paging.ScheduleScrapeCount` | app.py:140-153 | one page is scraped once; otherwise the table is scraped `max(total_pages, 0)` times |
| `Paging.ScheduleClickOrder` | app.py:140-153 | one page clicks nothing; otherwise pages 1..`total_pages` are clicked in increasing order, each directly followed by one scrape |
| `Text.Strip` | app.py:104-108 | the stripped cell is no longer than the cell and starts and ends with no whitespace |
| `Text.StripTrims` | app.py:104-108 | stripping both ends is stripping the start and then the end |
| `Text.StripPadded` | app.py:104-108 | text with no whitespace at either end comes back unchanged from any whitespace padding |
| `Text.StripIdempotent` | app.py:104-108 | stripping twice is stripping once |
| `Text.StripSplits` | app.py:104-108 | every cell is leading whitespace, its stripped text, then trailing whitespace |
| `Extract.ToRecord` | app.py:103-116 | a row gives a record exactly when it has five cells or more, else the cell locator times out; the fields are cells 0..4 stripped, in column order |
| `Extract.ToRecordUnpads` | app.py:103-116 | a row whose five cells are a record's fields with whitespace padding reads back as exactly that record |
| `Extract.ScrapeRows` | app.py:99-119 | the scrape succeeds exactly when every row has five cells; then it returns one record per row, in row order, each the record of its row |
| `Extract.CollectPages` | app.py:140-153 | the clicks and scrapes attempted are a prefix of the schedule, and all of it on success; one page returns the shown rows' records; otherwise it succeeds exactly when every page 1..N has a control and readable rows, and page `k` of the result is what clicking page `k` shows; a failure names the first page that is not readable, after every earlier page was: a missing control after its click, or a short row after its scrape |
| `Extract.PageLoop` | app.py:144-153 | the loop for more or fewer than one page: on failure, the page it stopped at is in 1..N, every page before it was readable, and the trace ends with that page's click (missing control) or its scrape (short row) |
| `Extract.Flatten` | app.py:159 | the records of all pages in one list; `FlattenLength` and `FlattenOrder` state what it keeps |
| `Extract.FlattenLength` | app.py:159 | flattening keeps every record: its length is the sum of the page lengths |
| `Extract.FlattenOrder` | app.py:159 | row `j` of page `i` sits at the position after all rows of the earlier pages |
| `Extract.ToSheet` | app.py:161 | one table row per record, holding the five fields in column order; the columns are the five names, or none when there are no records |
| `Extract.ExportedSheet` | app.py:157-164 | the table handed to the writer has one row per scraped record: row `TotalRows(pages[..i]) + j` holds the cells of row `j` of page `i`, so rows keep page order and then row order; it has the five columns unless no record was scraped |
| `Extract.ConvertToExcel` | app.py:157-167 | the buffer holds the writer's bytes for the table `ExportedSheet` describes, with the position left at the end of them, so a reader must rewind first |
| `Extract.PlannedPages` | app.py:127-134 | fails exactly when the summary is missing, unparsable, or gives a zero page size; a missing summary raises the locator timeout (`SummaryMissing`), an unparsable one the `ValueError` (`SummaryUnparsable`), and otherwise the result is the page count of the parsed summary, which fails only for a zero page size |
| `Extract.GoThroughAllPages` | app.py:122-155 | the result is `None` exactly when the marker shows, and then nothing is clicked; a missing or unparsable summary or a zero page size fails before any click; otherwise the clicks follow the schedule, and it succeeds exactly when every page it visits is readable (`Extract.PagesReadable`: the shown table for one page, the control and rows of each of pages 1..N otherwise), so a count of zero or fewer pages always succeeds; success always yields a buffer of the collected pages, and each collected page is what its click shows |
| `Email.FileName` | send_email.py:16 | the name is `meetingsLog_`, the start date, `_`, the end date, with no extension |
| `Email.FileNameRoundTrip` | send_email.py:16 | a window whose start has no `_` reads back from its file name |
| `Email.FileNameInjective` | send_email.py:16 | two such windows never share a file name |
| `Email.Notice` | send_email.py:19 | the no-data notice opens with its fixed lead, then the start date, ` to `, the end date |
| `Email.NoticeRoundTrip` | send_email.py:19 | a window whose start has no space reads back from its notice |
| `Email.AttachmentNote` | send_email.py:28 | the text part is the body, then ` that has falied meetings log from <start> to <end> with filename: ` (spelling as in the source), then the file name |
| `Email.Disposition` | send_email.py:26 | the disposition is `attachment; filename="`, the name, and a closing quote |
| `Email.Seek` | send_email.py:22 | `seek` keeps the content and moves the position |
| `Email.Read` | send_email.py:23 | a read before the end returns the content from the position on and leaves the position at the end; at or past the end it returns nothing and leaves the buffer as it was |
| `Email.RewoundReadIsWhole` | send_email.py:22-23 | after `seek(0)` the read returns the whole buffer, wherever the position was |
| `Email.Headers` | send_email.py:11-14 | five headers: `Content-Type: multipart/mixed` and `MIME-Version: 1.0` from `MIMEMultipart()`, then From, To and Subject |
| `Email.HeadersAsSet` | send_email.py:11-14 | the two multipart headers hold their fixed values, and From, To and Subject hold the sender, receiver and subject |
| `Email.ComposeAsWritten` | send_email.py:7-28 | five headers: the two multipart ones, then sender, receiver and subject; no buffer gives no part at all; a buffer gives exactly the attachment, whose payload is the whole buffer and whose disposition names the file, then the text part |
| `Email.NoticeDropped` | send_email.py:18-19 | without a buffer, the message as written carries no text part, while the intended message ends with the notice, from which the window reads back |
| `Email.ComposeMessage` | send_email.py:18-28 | the same headers as written; with a buffer, the same message as written; without one, the notice as its only part |
| `Email.MessageNamesWindow` | send_email.py:16-28 | every intended message ends in a text part from which the window reads back: the notice, or the file name ending the note |
| `Email.DispositionNamesWindow` | send_email.py:16-26 | the attachment's disposition holds the file name, which reads back as the window |
| `Job.IsoPlain` | app.py:96 | a `YYYY-MM-DD` text has no `_` and no space, so file names and notices built from it read back |
| `Job.Run` | app.py:28-66 | an overflowing date ends the run before any click, mail or logout; a target in a later month than today leaves the run stuck in the month-stepping loop, with no page clicked and nothing sent; otherwise the run either aborts (no mail, no logout) or delivers, and which one is fixed: it delivers exactly when the marker shows or every page it visits is readable, and a summary failure aborts with that summary's exception before any click. A delivered mail has the configured headers, carries an attachment exactly when the marker is absent, ends in a text from which the window reads back, and the logout is reached; with the marker showing it always delivers, with no page clicked |
| `Job.Report` | app.py:52-63 | once the window is chosen, the run delivers the intended message (`Email.ComposeMessage`) exactly when the marker shows or every page it visits is readable, and otherwise aborts with no mail and no logout; with the marker showing it delivers the notice without clicking; a summary failure aborts with that exception before any click |
| `Job.ComposedIsDelivered` | send_email.py:7-28 | the intended message meets every delivery condition for its window |
| `Job.DefaultWindowIsYesterday` | app.py:26 | with the default frequency of 1 the window starts on the day before today |

## Left out

- The browser session: launch, login, navigation, waits and `time.sleep` (app.py:28-46). Logging out is the single flag `loggedOut` of `Job.Outcome.Finished`. The page is the input value `Screen`.
- The date-picker clicks themselves (app.py:88-94). The model computes the label and header the clicks look for, and counts the "previous" clicks with `DateSelect.MonthClicks`. That count assumes the picker opens on today's month; what the picker shows first is not part of this model. The count compares months as (year, month) pairs. For valid dates `DateSelect.HeaderIdentifiesMonth` shows this is the same as testing the header texts for equality, but the source's stop test is weaker (see the `DateSelect.MonthClicks` line below).
- `.env` loading, `sys.exit` and `int(DAY_FREQUENCY)` (app.py:13-26): the settings are the parameter `Job.Config`.
- The clock. `datetime.today()` is read twice (app.py:71 and 96); the model reads it once, as the parameter `today`. A run that crosses midnight would end its window a day later in the source.
- Locale: weekday and month names are the fixed English tables.
- `Paging.PageCount`: computes `math.ceil(total / per_page)` exactly in integers. The source rounds the quotient to a float first. The two agree while `total` and `per_page` stay below 2^53 in magnitude. Beyond that they can differ:
  - the rounded quotient can land on a whole number below the true ceiling: `total` 2^53 + 1 with `per_page` 2^53 gives 1 page where the model gives 2;
  - it can underflow to 0.0 when `per_page` is vastly larger than `total`: the summary "1-10^400 of 1" gives 0 pages where the model gives 1;
  - it can overflow, and then the source raises `OverflowError` where the model returns a count.
- `Text.Strip`: removes ASCII whitespace (space, 9..13, 28..31) only. Python's `strip` and `\s` also accept non-ASCII whitespace, and `\d` accepts non-ASCII digits.
- pandas and openpyxl (app.py:161-164): the spreadsheet writer is the parameter `encode`. The model stops at the table handed to it.
- The SMTP session, MIME serialisation and the base64 transfer encoding of section 6.8 of RFC 2045 (send_email.py:25, 33-37). `send_excel_email` catches every exception and prints it (lines 41-42), so a mail failure never reaches `run`. The model stops at the composed message.
- Locator failures other than those named in `Results.Error`, and every `print`.
- `Summary.ParseSummary`: returns numbers for groups of any length. CPython versions that limit integer-string conversion (4300 digits by default) raise `ValueError` from `int()` (app.py:132) for a longer group. On those interpreters the "exactly when" of `Summary.ParseFailsIffNoOccurrence` holds only for groups within the limit.
- `Email.SheetPart`: the attachment's own part headers (`Content-Type` with its subtype, `MIME-Version` and `Content-Transfer-Encoding: base64`) are not modelled; the part records its content type, its disposition and its raw payload. The note's `MIMEText` part is its text alone, without its `text/plain` headers.
- `DateSelect.MonthClicks`: takes the stop test at app.py:90 as equality of months. Playwright's `has_text` with a string is a case-insensitive substring match. The two part only for a target year below 1000. There the target's header can be a prefix of a later header: "June 202" is inside "June 2025" (`DateSelect.ShortYearHeaderIsPrefix`). The source's loop then stops in the wrong month, and the day click at app.py:94 times out. The model counts the clicks to the target's month instead, so for such targets `Job.Run` reports a delivery where the source aborts without mail or logout. For target years 1000..9999 every shown year has four digits, so containment and equality agree there; this is argued here, not proved.
- `Job.Report`: sends the intended message (`Email.ComposeMessage`). With the marker showing, that is the notice, whereas the source sends a mail with no part (`Email.ComposeAsWritten`).
- `Job.Run`: sends the intended message (`Email.ComposeMessage`), not the one the source builds. That one is `Email.ComposeAsWritten`, and the Finding below compares them. A run whose target lies in a later month than today (a negative `DAY_FREQUENCY` crossing a month end) is reported as `Stuck`: the loop at app.py:90-91 clicks "previous" for ever. The model states this but not the browser's eventual fate.

Two consequences of the code that are easy to miss:

- A run with no failed rows on any page still produces a spreadsheet, and it has no header row: `pd.DataFrame([])` has no columns (`Extract.ToSheet`).
- `run` has no `try`/`finally`. An exception in date selection or page collection therefore ends the job before the logout (`Job.Run`).

## Findings

| source | as written | input that shows it | evidently intended | confidence | as-written member | corrected member |
|---|---|---|---|---|---|---|
| send_email.py:18-28 | with no buffer, `body` is reassigned to the "no data" notice, but nothing is attached afterwards, so the mail has no body | a page showing "No failed meetings found", window 2025-09-17 to 2025-09-18: the mail has zero parts | the notice is attached as the mail's text | high, not executed | `Email.NoticeDropped` | `Email.ComposeMessage` |

=== FILE: calendar.dfy ===
/** The proleptic Gregorian calendar as Python's `datetime.date` implements
    it: years 1..9999, day numbers counted from 0001-01-01 (day 1, a Monday),
    shifting by a number of days, the weekday, and the ISO 8601 extended
    calendar-date form `YYYY-MM-DD` (ISO 8601:2004 section 4.1.2.2) that
    `str(date)` produces. */
module Calendar {
  import opened Text
  import opened Results

  datatype Date = Date(year: int, month: int, day: int)

  const MinYear: int := 1
  const MaxYear: int := 9999
  const FirstDate: Date := Date(1, 1, 1)
  const LastDate: Date := Date(9999, 12, 31)
  /** The day number of 9999-12-31, the last date Python can represent. */
  const MaxOrdinal: int := 3652059

  predicate IsLeap(y: int) {
    y % 4 == 0 && (y % 100 != 0 || y % 400 == 0)
  }

  function DaysInYear(y: int): int {
    if IsLeap(y) then 366 else 365
  }

  function DaysInMonth(y: int, m: int): (n: int)
    requires 1 <= m <= 12
    ensures 28 <= n <= 31
  {
    if m == 2 then (if IsLeap(y) then 29 else 28)
    else if m == 4 || m == 6 || m == 9 || m == 11 then 30
    else 31
  }

  predicate Valid(d: Date) {
    && MinYear <= d.year <= MaxYear
    && 1 <= d.month <= 12
    && 1 <= d.day <= DaysInMonth(d.year, d.month)
  }

  /** Days in the months of year `y` before month `m`; `m == 13` gives the
      whole year. */
  function DaysBeforeMonth(y: int, m: int): nat
    requires 1 <= m <= 13
  {
    [0, 31, 59, 90, 120, 151, 181, 212, 243, 273, 304, 334, 365][m - 1]
    + (if m > 2 && IsLeap(y) then 1 else 0)
  }

  /** Days in the years before year `y`. */
  function DaysBeforeYear(y: int): nat
    requires y >= 1
  {
    var p := y - 1;
    p * 365 + p / 4 - p / 100 + p / 400
  }

  /** The day number of a date: 0001-01-01 is day 1. */
  function Ordinal(d: Date): (n: int)
    requires Valid(d)
    ensures n >= 1
  {
    DaysBeforeYear(d.year) + DaysBeforeMonth(d.year, d.month) + d.day
  }

  lemma DaysBeforeMonthStep(y: int, m: int)
    requires 1 <= m <= 12
    ensures DaysBeforeMonth(y, m + 1) == DaysBeforeMonth(y, m) + DaysInMonth(y, m)
  {
  }

  lemma DaysBeforeYearStep(y: int)
    requires y >= 1
    ensures DaysBeforeYear(y + 1) == DaysBeforeYear(y) + DaysInYear(y)
  {
    var p := y - 1;
    LeapCountStep(p);
    var a, b, c := y / 4 - p / 4, y / 100 - p / 100, y / 400 - p / 400;
    assert DaysBeforeYear(y + 1) == y * 365 + y / 4 - y / 100 + y / 400;
    assert DaysBeforeYear(y) == p * 365 + p / 4 - p / 100 + p / 400;
    assert DaysBeforeYear(y + 1) - DaysBeforeYear(y) == 365 + a - b + c;
    LeapCount(y);
  }

  /** A year is leap exactly when the multiples of 4, 100 and 400 it is
      count to one. */
  lemma LeapCount(y: int)
    ensures (if IsLeap(y) then 1 else 0)
         == (if y % 4 == 0 then 1 else 0) - (if y % 100 == 0 then 1 else 0) + (if y % 400 == 0 then 1 else 0)
  {
    if y % 400 == 0 {
      assert y == 100 * (4 * (y / 400));
    }
    if y % 100 == 0 {
      assert y == 4 * (25 * (y / 100));
    }
  }

  /** Counting the multiples of 4, 100 and 400 up to `p + 1` adds one for
      each that `p + 1` is. */
  lemma LeapCountStep(p: nat)
    ensures (p + 1) / 4 == p / 4 + (if (p + 1) % 4 == 0 then 1 else 0)
    ensures (p + 1) / 100 == p / 100 + (if (p + 1) % 100 == 0 then 1 else 0)
    ensures (p + 1) / 400 == p / 400 + (if (p + 1) % 400 == 0 then 1 else 0)
  {
  }

  /** Shifting a day number by `k` shifts its residue modulo 7 by `k`. */
  lemma ModShift(a: int, k: int)
    ensures (a + k) % 7 == (a % 7 + k) % 7
  {
    var q := a / 7;
    assert a == 7 * q + a % 7;
    assert a + k == 7 * q + (a % 7 + k);
  }

  /** The day before `d`. */
  function PrevDay(d: Date): (r: Date)
    requires Valid(d) && d != FirstDate
    ensures Valid(r) && Ordinal(r) == Ordinal(d) - 1
  {
    if d.day > 1 then Date(d.year, d.month, d.day - 1)
    else if d.month > 1 then
      DaysBeforeMonthStep(d.year, d.month - 1);
      Date(d.year, d.month - 1, DaysInMonth(d.year, d.month - 1))
    else
      DaysBeforeYearStep(d.year - 1);
      Date(d.year - 1, 12, 31)
  }

  /** The day after `d`. */
  function NextDay(d: Date): (r: Date)
    requires Valid(d) && d != LastDate
    ensures Valid(r) && Ordinal(r) == Ordinal(d) + 1
  {
    if d.day < DaysInMonth(d.year, d.month) then Date(d.year, d.month, d.day + 1)
    else if d.month < 12 then
      DaysBeforeMonthStep(d.year, d.month);
      Date(d.year, d.month + 1, 1)
    else
      DaysBeforeYearStep(d.year);
      Date(d.year + 1, 1, 1)
  }

  /** Walks `k` days from `d`, forwards when `k > 0` and backwards when `k < 0`. */
  function Walk(d: Date, k: int): (r: Date)
    requires Valid(d) && 1 <= Ordinal(d) + k <= MaxOrdinal
    ensures Valid(r) && Ordinal(r) == Ordinal(d) + k
    decreases if k < 0 then -k else k
  {
    if k == 0 then d
    else if k > 0 then
      assert d != LastDate by { LastDateOrdinal(); }
      Walk(NextDay(d), k - 1)
    else
      Walk(PrevDay(d), k + 1)
  }

  lemma LastDateOrdinal()
    ensures Valid(LastDate) && Ordinal(LastDate) == MaxOrdinal
  {
  }

  /** Python `date + timedelta(days=k)`: the date `k` days later, or
      `OverflowError` when that falls outside years 1..9999. */
  function ShiftDays(d: Date, k: int): (r: Result<Date>)
    requires Valid(d)
    ensures r.Ok? <==> 1 <= Ordinal(d) + k <= MaxOrdinal
    ensures r.Err? ==> r.error == DateOverflow
    ensures r.Ok? ==> Valid(r.value) && Ordinal(r.value) == Ordinal(d) + k
    ensures r.Ok? ==> Weekday(r.value) == (Weekday(d) + k) % 7
  {
    if 1 <= Ordinal(d) + k <= MaxOrdinal then
      var t := Walk(d, k);
      ModShift(Ordinal(d) + 6, k);
      Ok(t)
    else Err(DateOverflow)
  }

  /** Python `date.weekday()`: 0 for Monday up to 6 for Sunday. */
  function Weekday(d: Date): (w: int)
    requires Valid(d)
    ensures 0 <= w < 7
  {
    (Ordinal(d) + 6) % 7
  }

  /** `a` falls strictly before `b` on the calendar. */
  predicate Before(a: Date, b: Date) {
    || a.year < b.year
    || (a.year == b.year && a.month < b.month)
    || (a.year == b.year && a.month == b.month && a.day < b.day)
  }

  lemma {:induction false} DaysBeforeYearMonotone(y1: int, y2: int)
    requires 1 <= y1 < y2
    ensures DaysBeforeYear(y1) + DaysInYear(y1) <= DaysBeforeYear(y2)
    decreases y2 - y1
  {
    DaysBeforeYearStep(y1);
    if y1 + 1 < y2 {
      DaysBeforeYearMonotone(y1 + 1, y2);
    }
  }

  lemma {:induction false} DaysBeforeMonthMonotone(y: int, m1: int, m2: int)
    requires 1 <= m1 < m2 <= 13
    ensures DaysBeforeMonth(y, m1) + DaysInMonth(y, m1) <= DaysBeforeMonth(y, m2)
    decreases m2 - m1
  {
    DaysBeforeMonthStep(y, m1);
    if m1 + 1 < m2 {
      DaysBeforeMonthMonotone(y, m1 + 1, m2);
    }
  }

  /** Day numbers follow the calendar order. */
  lemma OrdinalOrder(a: Date, b: Date)
    requires Valid(a) && Valid(b)
    ensures Before(a, b) <==> Ordinal(a) < Ordinal(b)
  {
    if Before(a, b) {
      OrdinalBefore(a, b);
    } else if a != b {
      OrdinalBefore(b, a);
    }
  }

  lemma OrdinalBefore(a: Date, b: Date)
    requires Valid(a) && Valid(b) && Before(a, b)
    ensures Ordinal(a) < Ordinal(b)
  {
    if a.year < b.year {
      DaysBeforeMonthMonotone(a.year, a.month, 13);
      DaysBeforeYearMonotone(a.year, b.year);
    } else if a.month < b.month {
      DaysBeforeMonthMonotone(a.year, a.month, b.month);
    }
  }

  /** Different dates have different day numbers. */
  lemma OrdinalInjective(a: Date, b: Date)
    requires Valid(a) && Valid(b) && Ordinal(a) == Ordinal(b)
    ensures a == b
  {
    OrdinalOrder(a, b);
    OrdinalOrder(b, a);
  }

  /** Every representable date has a day number in 1..MaxOrdinal. */
  lemma OrdinalRange(d: Date)
    requires Valid(d)
    ensures 1 <= Ordinal(d) <= MaxOrdinal
  {
    LastDateOrdinal();
    if d != LastDate {
      OrdinalOrder(d, LastDate);
    }
  }

  /** Python `str(date)`: `YYYY-MM-DD`, each field zero-padded. */
  function Iso(d: Date): (s: string)
    requires Valid(d)
    ensures |s| == 10 && s[4] == '-' && s[7] == '-'
    ensures AllDigits(s[..4]) && AllDigits(s[5..7]) && AllDigits(s[8..])
  {
    assert Pow10(4) == 10000 && Pow10(2) == 100;
    DecLength(d.year, 4);
    DecLength(d.month, 2);
    DecLength(d.day, 2);
    var s := Pad(d.year, 4) + "-" + Pad(d.month, 2) + "-" + Pad(d.day, 2);
    assert s[..4] == Pad(d.year, 4) && s[5..7] == Pad(d.month, 2) && s[8..] == Pad(d.day, 2);
    s
  }

  /** Reads a `YYYY-MM-DD` string; the inverse of `Iso`. */
  function ParseIso(s: string): Option<Date> {
    if |s| == 10 && s[4] == '-' && s[7] == '-'
       && AllDigits(s[..4]) && AllDigits(s[5..7]) && AllDigits(s[8..])
    then Some(Date(NatOf(s[..4]), NatOf(s[5..7]), NatOf(s[8..])))
    else None
  }

  /** The ISO form of a date reads back as that date. */
  lemma IsoRoundTrip(d: Date)
    requires Valid(d)
    ensures ParseIso(Iso(d)) == Some(d)
  {
    var s := Iso(d);
    assert s[..4] == Pad(d.year, 4) && s[5..7] == Pad(d.month, 2) && s[8..] == Pad(d.day, 2);
    NatOfPad(d.year, 4);
    NatOfPad(d.month, 2);
    NatOfPad(d.day, 2);
  }

  /** Different dates are written differently. */
  lemma IsoInjective(a: Date, b: Date)
    requires Valid(a) && Valid(b) && Iso(a) == Iso(b)
    ensures a == b
  {
    IsoRoundTrip(a);
    IsoRoundTrip(b);
  }
}

=== FILE: date_select.dfy ===
/** The pure part of `select_date`: from today's date and a day offset it
    derives the target date, the accessible label of the target's day
    control in the date picker ("Choose Thursday, September 18th, 2025"),
    the picker's month header ("September 2025"), and the reporting window
    of two ISO dates. Weekday and month names are the English ones. */
module DateSelect {
  import opened Text
  import opened Results
  import opened Calendar
  import opened Entities

  /** `strftime("%A")` names, indexed by `date.weekday()`. */
  const WeekdayNames: seq<string> :=
    ["Monday", "Tuesday", "Wednesday", "Thursday", "Friday", "Saturday", "Sunday"]

  /** `strftime("%B")` names, indexed by month - 1. */
  const MonthNames: seq<string> :=
    ["January", "February", "March", "April", "May", "June", "July",
     "August", "September", "October", "November", "December"]

  function WeekdayName(d: Date): string
    requires Valid(d)
  {
    WeekdayNames[Weekday(d)]
  }

  function MonthName(d: Date): string
    requires Valid(d)
  {
    MonthNames[d.month - 1]
  }

  /** The English ordinal suffix of a positive number: "th" for 11, 12 and
      13 (and anything ending in them), otherwise by the last digit. */
  function EnglishSuffix(n: nat): string {
    if 11 <= n % 100 <= 13 then "th"
    else if n % 10 == 1 then "st"
    else if n % 10 == 2 then "nd"
    else if n % 10 == 3 then "rd"
    else "th"
  }

  /** The suffix `select_date` picks for a day of the month: "th" for
      4..20 and 24..30, otherwise the entry `day % 10 - 1` of
      ["st", "nd", "rd"], an index that always lies in 0..2. */
  function OrdinalSuffix(day: int): (s: string)
    requires 1 <= day <= 31
    ensures s == EnglishSuffix(day)
    ensures s == "st" <==> day == 1 || day == 21 || day == 31
    ensures s == "nd" <==> day == 2 || day == 22
    ensures s == "rd" <==> day == 3 || day == 23
    ensures s == "th" <==> (4 <= day <= 20 || 24 <= day <= 30)
  {
    if 4 <= day <= 20 || 24 <= day <= 30 then "th"
    else ["st", "nd", "rd"][day % 10 - 1]
  }

  /** The `aria-label` of the target's day control. */
  function Label(d: Date): string
    requires Valid(d)
  {
    "Choose " + WeekdayName(d) + ", " + MonthName(d) + " "
    + Dec(d.day) + OrdinalSuffix(d.day) + ", " + Dec(d.year)
  }

  /** The picker's month header text that the month stepping waits for. */
  function HeaderText(d: Date): string
    requires Valid(d)
  {
    MonthName(d) + " " + Dec(d.year)
  }

  /** What `select_date` computes besides clicking. */
  datatype Selection = Selection(target: Date, dayLabel: string, monthHeader: string, window: DateWindow)

  /** `select_date(page, days_before)` with `today` read once: the target
      is `days_before` days before today; `OverflowError` when it leaves
      years 1..9999. */
  function SelectDate(today: Date, daysBefore: int): (r: Result<Selection>)
    requires Valid(today)
    ensures r.Ok? <==> 1 <= Ordinal(today) - daysBefore <= MaxOrdinal
    ensures r.Err? ==> r.error == DateOverflow
    ensures r.Ok? ==> Valid(r.value.target) && Ordinal(r.value.target) == Ordinal(today) - daysBefore
    ensures r.Ok? ==> r.value.window == DateWindow(Iso(r.value.target), Iso(today))
    ensures r.Ok? ==> r.value.dayLabel == Label(r.value.target) && r.value.monthHeader == HeaderText(r.value.target)
  {
    var shifted := ShiftDays(today, -daysBefore);
    if shifted.Err? then Err(shifted.error)
    else
      var t := shifted.value;
      Ok(Selection(t, Label(t), HeaderText(t), DateWindow(Iso(t), Iso(today))))
  }

  /** A non-negative offset never selects a date after today, and a
      positive one selects a date strictly before it. */
  lemma TargetNotAfterToday(today: Date, daysBefore: int)
    requires Valid(today) && daysBefore >= 0
    requires SelectDate(today, daysBefore).Ok?
    ensures !Before(today, SelectDate(today, daysBefore).value.target)
    ensures daysBefore > 0 ==> Before(SelectDate(today, daysBefore).value.target, today)
  {
    var t := SelectDate(today, daysBefore).value.target;
    OrdinalOrder(today, t);
    OrdinalOrder(t, today);
  }

  // ---------------------------------------------------------------------
  // Stepping the picker back to the target's month.

  /** Months counted from year 0: `12 * year + month - 1`. */
  function MonthIndex(d: Date): int {
    12 * d.year + d.month - 1
  }

  /** The (year, month) the picker shows after `k` clicks on "previous",
      when it opens on today's month. */
  function ShownMonth(today: Date, k: nat): (int, int) {
    var idx := MonthIndex(today) - k;
    (idx / 12, idx % 12 + 1)
  }

  /** The number of "previous" clicks the month-stepping loop makes before
      the target's month header shows; `None` when the target's month lies
      after today's, which the loop, only ever stepping back, never reaches. */
  function MonthClicks(today: Date, target: Date): (r: Option<nat>)
    requires Valid(today) && Valid(target)
    ensures r.Some? <==> MonthIndex(target) <= MonthIndex(today)
  {
    if MonthIndex(target) <= MonthIndex(today) then Some(MonthIndex(today) - MonthIndex(target)) else None
  }

  /** A (year, month) pair is shown at month index `idx` exactly when `idx`
      is that month's index. */
  lemma ShownAt(idx: int, y: int, m: int)
    requires 1 <= m <= 12
    ensures (idx / 12, idx % 12 + 1) == (y, m) <==> idx == 12 * y + m - 1
  {
    if idx == 12 * y + m - 1 {
      assert idx / 12 == y && idx % 12 == m - 1;
    }
  }

  /** The loop stops exactly at `MonthClicks`: after that many clicks the
      target's month shows, and no earlier click count shows it; with `None`
      no number of clicks ever shows it. */
  lemma MonthClicksFirst(today: Date, target: Date, k: nat)
    requires Valid(today) && Valid(target)
    ensures MonthClicks(today, target).Some? && k == MonthClicks(today, target).value ==>
      ShownMonth(today, k) == (target.year, target.month)
    ensures (MonthClicks(today, target).None? || k < MonthClicks(today, target).value) ==>
      ShownMonth(today, k) != (target.year, target.month)
  {
    ShownAt(MonthIndex(today) - k, target.year, target.month);
  }

  /** A non-negative offset always lands in today's month or an earlier one,
      so the loop ends. */
  lemma NonNegativeOffsetReachesMonth(today: Date, daysBefore: int)
    requires Valid(today) && daysBefore >= 0 && SelectDate(today, daysBefore).Ok?
    ensures MonthClicks(today, SelectDate(today, daysBefore).value.target).Some?
  {
    TargetNotAfterToday(today, daysBefore);
  }

  /** The window's two strings determine the two dates. */
  lemma WindowDeterminesDates(today: Date, daysBefore: int)
    requires Valid(today) && SelectDate(today, daysBefore).Ok?
    ensures ParseIso(SelectDate(today, daysBefore).value.window.start)
            == Some(SelectDate(today, daysBefore).value.target)
    ensures ParseIso(SelectDate(today, daysBefore).value.window.end) == Some(today)
  {
    IsoRoundTrip(SelectDate(today, daysBefore).value.target);
    IsoRoundTrip(today);
  }

  // ---------------------------------------------------------------------
  // Reading a label and a header back.

  /** The position of a weekday name in `WeekdayNames`, -1 for any other text. */
  function WeekdayNumber(w: string): int {
    if w == "Monday" then 0 else if w == "Tuesday" then 1
    else if w == "Wednesday" then 2 else if w == "Thursday" then 3
    else if w == "Friday" then 4 else if w == "Saturday" then 5
    else if w == "Sunday" then 6 else -1
  }

  /** The month number of a month name, 0 for any other text. */
  function MonthNumber(m: string): int {
    if m == "January" then 1 else if m == "February" then 2
    else if m == "March" then 3 else if m == "April" then 4
    else if m == "May" then 5 else if m == "June" then 6
    else if m == "July" then 7 else if m == "August" then 8
    else if m == "September" then 9 else if m == "October" then 10
    else if m == "November" then 11 else if m == "December" then 12
    else 0
  }

  /** The weekday names contain no comma and read back as their position. */
  lemma WeekdayTable(i: int)
    requires 0 <= i < 7
    ensures ',' !in WeekdayNames[i] && WeekdayNumber(WeekdayNames[i]) == i
  {
    if i == 0 {} else if i == 1 {} else if i == 2 {} else if i == 3 {}
    else if i == 4 {} else if i == 5 {} else {}
  }

  /** The month names contain no space and read back as their month number. */
  lemma MonthTable(i: int)
    requires 0 <= i < 12
    ensures ' ' !in MonthNames[i] && MonthNumber(MonthNames[i]) == i + 1
  {
    if i == 0 {} else if i == 1 {} else if i == 2 {} else if i == 3 {}
    else if i == 4 {} else if i == 5 {} else if i == 6 {} else if i == 7 {}
    else if i == 8 {} else if i == 9 {} else if i == 10 {} else {}
  }

  datatype LabelParts = LabelParts(weekday: int, month: int, day: nat, suffix: string, year: nat)

  /** Reads "Choose <weekday>, <month> <day><suffix>, <year>". */
  function ParseLabel(s: string): Option<LabelParts> {
    if |s| >= 7 && s[..7] == "Choose " then ParseWeekdayPart(s[7..]) else None
  }

  /** Reads "<weekday>, " and hands the rest on. */
  function ParseWeekdayPart(r: string): Option<LabelParts> {
    var w := TakeUntil(r, ',');
    var rest := r[|w|..];
    if |rest| >= 2 && rest[1] == ' ' && WeekdayNumber(w) >= 0 then
      match ParseMonthPart(rest[2..])
      case None => None
      case Some(p) => Some(p.(weekday := WeekdayNumber(w)))
    else None
  }

  /** Reads "<month> " and hands the rest on. */
  function ParseMonthPart(r: string): Option<LabelParts> {
    var m := TakeUntil(r, ' ');
    var rest := r[|m|..];
    if |rest| >= 1 && MonthNumber(m) >= 1 then
      match ParseDayPart(rest[1..])
      case None => None
      case Some(p) => Some(p.(month := MonthNumber(m)))
    else None
  }

  /** Reads "<day><two-letter suffix>, <year>". */
  function ParseDayPart(r: string): Option<LabelParts> {
    var n := Span(r, 0, IsDigit);
    if n >= 1 && |r| >= n + 5 && r[n + 2..n + 4] == ", " && AllDigits(r[n + 4..]) then
      Some(LabelParts(-1, 0, NatOf(r[..n]), r[n..n + 2], NatOf(r[n + 4..])))
    else None
  }

  /** Reads "<month> <year>" into the month number and the year. */
  function ParseHeader(s: string): Option<(int, nat)> {
    var m := TakeUntil(s, ' ');
    var r := s[|m|..];
    if |r| < 2 || !AllDigits(r[1..]) || MonthNumber(m) < 1 then None
    else Some((MonthNumber(m), NatOf(r[1..])))
  }

  /** A label assembled from its five fields reads back as those fields. */
  lemma ParseAssembledLabel(W: string, M: string, D: string, X: string, Y: string)
    requires ',' !in W && WeekdayNumber(W) >= 0
    requires ' ' !in M && MonthNumber(M) >= 1
    requires |D| >= 1 && AllDigits(D)
    requires |X| == 2 && !IsDigit(X[0])
    requires |Y| >= 1 && AllDigits(Y)
    ensures ParseLabel("Choose " + W + ", " + M + " " + D + X + ", " + Y)
            == Some(LabelParts(WeekdayNumber(W), MonthNumber(M), NatOf(D), X, NatOf(Y)))
  {
    var parts := LabelParts(-1, 0, NatOf(D), X, NatOf(Y));
    var dayPart := D + X + ", " + Y;
    ParseDayPartAssembled(D, X, Y);
    var monthPart := M + " " + dayPart;
    ParseMonthPartAssembled(M, dayPart);
    assert ParseMonthPart(monthPart) == Some(parts.(month := MonthNumber(M)));
    var weekdayPart := W + ", " + monthPart;
    ParseWeekdayPartAssembled(W, monthPart);
    assert ParseWeekdayPart(weekdayPart)
        == Some(LabelParts(WeekdayNumber(W), MonthNumber(M), NatOf(D), X, NatOf(Y)));
    var s := "Choose " + weekdayPart;
    assert s[..7] == "Choose " && s[7..] == weekdayPart;
    LabelGrouping(W, M, D, X, Y);
  }

  lemma LabelGrouping(W: string, M: string, D: string, X: string, Y: string)
    ensures "Choose " + W + ", " + M + " " + D + X + ", " + Y
            == "Choose " + (W + ", " + (M + " " + (D + X + ", " + Y)))
  {
  }

  lemma ParseDayPartAssembled(D: string, X: string, Y: string)
    requires |D| >= 1 && AllDigits(D)
    requires |X| == 2 && !IsDigit(X[0])
    requires |Y| >= 1 && AllDigits(Y)
    ensures ParseDayPart(D + X + ", " + Y) == Some(LabelParts(-1, 0, NatOf(D), X, NatOf(Y)))
  {
    DayPartLayout(D, X, Y);
    ParseDayPartOf(D + X + ", " + Y, D, X, Y);
  }

  /** Where the pieces of "<day><suffix>, <year>" fall. */
  lemma DayPartLayout(D: string, X: string, Y: string)
    requires |X| == 2
    ensures var r := D + X + ", " + Y; var n := |D|;
      && |r| == n + 4 + |Y| && r[..n] == D && r[n] == X[0]
      && r[n..n + 2] == X && r[n + 2..n + 4] == ", " && r[n + 4..] == Y
  {
  }

  /** `ParseDayPart` on a text laid out as day digits, a two-letter suffix,
      ", " and year digits. */
  lemma ParseDayPartOf(r: string, D: string, X: string, Y: string)
    requires |D| >= 1 && AllDigits(D)
    requires |X| == 2 && !IsDigit(X[0])
    requires |Y| >= 1 && AllDigits(Y)
    requires |r| == |D| + 4 + |Y| && r[..|D|] == D && r[|D|] == X[0]
    requires r[|D|..|D| + 2] == X && r[|D| + 2..|D| + 4] == ", " && r[|D| + 4..] == Y
    ensures ParseDayPart(r) == Some(LabelParts(-1, 0, NatOf(D), X, NatOf(Y)))
  {
    var n := |D|;
    forall k | 0 <= k < n ensures IsDigit(r[k]) {
      assert r[..n][k] == r[k];
    }
    SpanIsRunEnd(r, 0, n, IsDigit);
  }

  lemma ParseMonthPartAssembled(M: string, rest: string)
    requires ' ' !in M && MonthNumber(M) >= 1
    ensures ParseMonthPart(M + " " + rest)
            == match ParseDayPart(rest)
               case None => None
               case Some(p) => Some(p.(month := MonthNumber(M)))
  {
    var r := M + " " + rest;
    assert r == M + [' '] + rest;
    TakeUntilStopsAt(M, ' ', rest);
    assert r[|M|..][1..] == rest;
  }

  lemma ParseWeekdayPartAssembled(W: string, rest: string)
    requires ',' !in W && WeekdayNumber(W) >= 0
    ensures ParseWeekdayPart(W + ", " + rest)
            == match ParseMonthPart(rest)
               case None => None
               case Some(p) => Some(p.(weekday := WeekdayNumber(W)))
  {
    var r := W + ", " + rest;
    assert r == W + [','] + (" " + rest);
    TakeUntilStopsAt(W, ',', " " + rest);
    assert r[|W|..] == ", " + rest;
    assert r[|W|..][2..] == rest;
  }

  /** The label names the target's weekday, month, day, suffix and year, and
      reads back as exactly those. */
  lemma LabelRoundTrip(d: Date)
    requires Valid(d)
    ensures ParseLabel(Label(d))
            == Some(LabelParts(Weekday(d), d.month, d.day, OrdinalSuffix(d.day), d.year))
  {
    WeekdayTable(Weekday(d));
    MonthTable(d.month - 1);
    var X := OrdinalSuffix(d.day);
    assert X[0] == 's' || X[0] == 'n' || X[0] == 'r' || X[0] == 't';
    ParseAssembledLabel(WeekdayName(d), MonthName(d), Dec(d.day), X, Dec(d.year));
    NatOfDec(d.day);
    NatOfDec(d.year);
  }

  /** The header reads back as the target's month and year. */
  lemma HeaderRoundTrip(d: Date)
    requires Valid(d)
    ensures ParseHeader(HeaderText(d)) == Some((d.month, d.year))
  {
    MonthTable(d.month - 1);
    var M, Y := MonthName(d), Dec(d.year);
    var s := HeaderText(d);
    assert s == M + [' '] + Y;
    TakeUntilStopsAt(M, ' ', Y);
    assert s[|M|..][1..] == Y;
    NatOfDec(d.year);
  }

  /** Two dates share a day label exactly when they are the same date, so
      the label selects one day control. */
  lemma LabelIdentifiesDate(a: Date, b: Date)
    requires Valid(a) && Valid(b)
    ensures Label(a) == Label(b) <==> a == b
  {
    LabelRoundTrip(a);
    LabelRoundTrip(b);
  }

  /** Two dates share a month header exactly when they fall in the same
      month of the same year: the header the month stepping waits for is the
      target's month. */
  lemma HeaderIdentifiesMonth(a: Date, b: Date)
    requires Valid(a) && Valid(b)
    ensures HeaderText(a) == HeaderText(b) <==> a.month == b.month && a.year == b.year
  {
    HeaderRoundTrip(a);
    HeaderRoundTrip(b);
  }

  /** The source's own example: 2025-09-18 is a Thursday. */
  lemma ThursdayExample()
    ensures Valid(Date(2025, 9, 18))
    ensures Label(Date(2025, 9, 18)) == "Choose Thursday, September 18th, 2025"
    ensures HeaderText(Date(2025, 9, 18)) == "September 2025"
  {
    SeptemberEighteenth();
    ExampleNumerals();
    var d := Date(2025, 9, 18);
    assert Label(d) == "Choose " + "Thursday" + ", " + "September" + " " + "18" + "th" + ", " + "2025";
    ExampleLabelText();
  }

  /** The header of a target in year 202 is a prefix of today's header in
      2025, so a substring test on the shown header already holds before any
      click, while `MonthClicks` counts the clicks down to June 202. */
  lemma ShortYearHeaderIsPrefix()
    ensures Valid(Date(202, 6, 18)) && Valid(Date(2025, 6, 18))
    ensures HeaderText(Date(202, 6, 18)) == HeaderText(Date(2025, 6, 18))[..8]
    ensures HeaderText(Date(202, 6, 18)) != HeaderText(Date(2025, 6, 18))
    ensures MonthClicks(Date(2025, 6, 18), Date(202, 6, 18)) == Some(21876)
  {
    ExampleNumerals();
    assert Dec(202) == "202" by { assert Dec(20) == "20"; }
    assert HeaderText(Date(202, 6, 18)) == "June" + " " + "202";
    assert HeaderText(Date(2025, 6, 18)) == "June" + " " + "2025";
  }

  lemma ExampleLabelText()
    ensures "Choose " + "Thursday" + ", " + "September" + " " + "18" + "th" + ", " + "2025"
            == "Choose Thursday, September 18th, 2025"
  {
  }

  lemma ExampleNumerals()
    ensures Dec(2025) == "2025" && Dec(18) == "18" && OrdinalSuffix(18) == "th"
  {
    assert Dec(202) == "202" by { assert Dec(20) == "20"; }
  }

  lemma SeptemberEighteenth()
    ensures Valid(Date(2025, 9, 18)) && Weekday(Date(2025, 9, 18)) == 3
    ensures WeekdayName(Date(2025, 9, 18)) == "Thursday" && MonthName(Date(2025, 9, 18)) == "September"
  {
    assert DaysBeforeYear(2025) == 739251;
    assert DaysBeforeMonth(2025, 9) == 243;
  }
}

=== FILE: email.dfy ===
/** Message composition of `send_excel_email`: the headers, the attachment
    file name, the choice between the "no data" and the attachment shape,
    and the order of the parts. The SMTP session, MIME serialisation and
    the base64 transfer encoding are not part of this model. */
module Email {
  import opened Text
  import opened Results
  import opened Entities

  datatype Header = Header(name: string, value: string)

  /** A MIME part: the spreadsheet attachment (its content type, its
      Content-Disposition value and its raw bytes), or a plain-text part. */
  datatype Part =
    | Attachment(contentType: string, disposition: string, payload: seq<bv8>)
    | TextPart(text: string)

  datatype Message = Message(headers: seq<Header>, parts: seq<Part>)

  const DefaultSubject: string := "Failed Meetings Data Log"
  const DefaultBody: string := "Please find the attached Excel file."
  const SheetType: string := "application/vnd.openxmlformats-officedocument.spreadsheetml.sheet"
  const FilePrefix: string := "meetingsLog_"
  /** The opening of the "no data" notice, spelling as in the source. */
  const NoticeLead: string := "No Falied meetings Recorded in this period form "

  /** `'meetingsLog_' + dates[0] + '_' + dates[1]`: no extension. */
  function FileName(w: DateWindow): (name: string)
    ensures |name| == |FilePrefix| + |w.start| + 1 + |w.end|
    ensures name[..|FilePrefix|] == FilePrefix
    ensures name[|FilePrefix|..] == w.start + ['_'] + w.end
  {
    FilePrefix + w.start + "_" + w.end
  }

  /** Reads a file name back into the window it names: the start runs up to
      the first `_` after the prefix. */
  function ParseFileName(name: string): Option<DateWindow> {
    if |name| < |FilePrefix| || name[..|FilePrefix|] != FilePrefix then None
    else
      var rest := name[|FilePrefix|..];
      var start := TakeUntil(rest, '_');
      if |start| == |rest| then None
      else Some(DateWindow(start, rest[|start| + 1..]))
  }

  /** A window whose start holds no `_` is recovered from its file name. */
  lemma FileNameRoundTrip(w: DateWindow)
    requires '_' !in w.start
    ensures ParseFileName(FileName(w)) == Some(w)
  {
    var rest := w.start + ['_'] + w.end;
    TakeUntilStopsAt(w.start, '_', w.end);
    assert rest[|w.start| + 1..] == w.end;
  }

  /** Two such windows never share a file name. */
  lemma FileNameInjective(a: DateWindow, b: DateWindow)
    requires '_' !in a.start && '_' !in b.start
    requires FileName(a) == FileName(b)
    ensures a == b
  {
    FileNameRoundTrip(a);
    FileNameRoundTrip(b);
  }

  /** The body the `None` branch computes. */
  function Notice(w: DateWindow): (t: string)
    ensures |t| == |NoticeLead| + |w.start| + 4 + |w.end|
    ensures t[..|NoticeLead|] == NoticeLead
    ensures t[|NoticeLead|..] == w.start + [' '] + ("to " + w.end)
  {
    NoticeLead + w.start + " to " + w.end
  }

  /** Reads the window back out of a "no data" notice. */
  function ParseNotice(t: string): Option<DateWindow> {
    if |t| < |NoticeLead| || t[..|NoticeLead|] != NoticeLead then None
    else
      var rest := t[|NoticeLead|..];
      var start := TakeUntil(rest, ' ');
      if |start| + 4 > |rest| || rest[|start|..|start| + 4] != " to " then None
      else Some(DateWindow(start, rest[|start| + 4..]))
  }

  /** A window whose start holds no space is recovered from its notice. */
  lemma NoticeRoundTrip(w: DateWindow)
    requires ' ' !in w.start
    ensures ParseNotice(Notice(w)) == Some(w)
  {
    var rest := w.start + [' '] + ("to " + w.end);
    TakeUntilStopsAt(w.start, ' ', "to " + w.end);
    assert rest[|w.start|..|w.start| + 4] == " to ";
    assert rest[|w.start| + 4..] == w.end;
  }

  /** The opening of the attachment note's middle, spelling as in the source. */
  const NoteLead: string := " that has falied meetings log from "

  /** The text part that accompanies the attachment: the body, the window,
      then the file name. */
  function AttachmentNote(body: string, w: DateWindow): (t: string)
    ensures |t| == |body| + |NoteLead| + |w.start| + 4 + |w.end| + 16 + |FileName(w)|
    ensures t[..|body|] == body
    ensures t[|body|..|t| - |FileName(w)|] == NoteLead + w.start + " to " + w.end + " with filename: "
    ensures t[|t| - |FileName(w)|..] == FileName(w)
  {
    var middle := NoteLead + w.start + " to " + w.end + " with filename: ";
    assert body + middle + FileName(w) == body + (middle + FileName(w));
    body + middle + FileName(w)
  }

  /** `attachment; filename="<name>"`. */
  function Disposition(name: string): (d: string)
    ensures |d| == 23 + |name|
    ensures d[..22] == "attachment; filename=\""
    ensures d[22..|d| - 1] == name && d[|d| - 1] == '"'
  {
    "attachment; filename=\"" + name + "\""
  }

  /** `buffer.seek(pos)`. */
  function Seek(b: Buffer, pos: nat): (r: Buffer)
    ensures r.data == b.data && r.pos == pos
  {
    Buffer(b.data, pos)
  }

  /** `buffer.read()`: everything from the position on, leaving the
      position at the end; at or past the end, nothing, and the position
      stays where it was. */
  function Read(b: Buffer): (r: (seq<bv8>, Buffer))
    ensures b.pos <= |b.data| ==> b.data == b.data[..b.pos] + r.0 && r.1 == Buffer(b.data, |b.data|)
    ensures b.pos >= |b.data| ==> r.0 == [] && r.1 == b
  {
    if b.pos < |b.data| then (b.data[b.pos..], Buffer(b.data, |b.data|)) else ([], b)
  }

  /** Rewinding first makes the read return the whole content, wherever the
      writer left the position. */
  lemma RewoundReadIsWhole(b: Buffer)
    ensures Read(Seek(b, 0)).0 == b.data
  {
    assert b.data[..0] == [];
  }

  /** The two headers `MIMEMultipart()` sets itself (the boundary parameter
      is added only when the message is serialised). */
  const MultipartHeaders: seq<Header> := [Header("Content-Type", "multipart/mixed"), Header("MIME-Version", "1.0")]

  /** The multipart headers, then From, To and Subject, in that order. */
  function Headers(sender: string, receiver: string, subject: string): (hs: seq<Header>)
    ensures |hs| == 5 && hs[..2] == MultipartHeaders
    ensures hs[2..] == [Header("From", sender), Header("To", receiver), Header("Subject", subject)]
  {
    MultipartHeaders + [Header("From", sender), Header("To", receiver), Header("Subject", subject)]
  }

  /** The value of the first header called `name`. */
  function HeaderValue(hs: seq<Header>, name: string): Option<string> {
    if |hs| == 0 then None
    else if hs[0].name == name then Some(hs[0].value)
    else HeaderValue(hs[1..], name)
  }

  /** The attachment part for the spreadsheet in `b`. */
  function SheetPart(b: Buffer, w: DateWindow): Part {
    Attachment(SheetType, Disposition(FileName(w)), Read(Seek(b, 0)).0)
  }

  /** The message `send_excel_email` builds, as written: with no buffer the
      notice it computes is never attached, so the message has no part. */
  function ComposeAsWritten(sender: string, receiver: string, subject: string, body: string,
                            buffer: Option<Buffer>, w: DateWindow): (m: Message)
    ensures |m.headers| == 5
    ensures HeaderValue(m.headers, "Content-Type") == Some("multipart/mixed")
    ensures HeaderValue(m.headers, "MIME-Version") == Some("1.0")
    ensures HeaderValue(m.headers, "From") == Some(sender)
    ensures HeaderValue(m.headers, "To") == Some(receiver)
    ensures HeaderValue(m.headers, "Subject") == Some(subject)
    ensures buffer.None? ==> m.parts == []
    ensures buffer.Some? ==> (|m.parts| == 2
      && m.parts[0] == Attachment(SheetType, Disposition(FileName(w)), buffer.value.data)
      && m.parts[1] == TextPart(AttachmentNote(body, w)))
  {
    HeadersAsSet(sender, receiver, subject);
    RewoundReadIsWhole(if buffer.Some? then buffer.value else Buffer([], 0));
    var parts := match buffer
      case None => []
      case Some(b) => [SheetPart(b, w), TextPart(AttachmentNote(body, w))];
    Message(Headers(sender, receiver, subject), parts)
  }

  /** The message the job means to send: as written, except that with no
      buffer the notice is attached as the only part. */
  function ComposeMessage(sender: string, receiver: string, subject: string, body: string,
                          buffer: Option<Buffer>, w: DateWindow): (m: Message)
    ensures m.headers == ComposeAsWritten(sender, receiver, subject, body, buffer, w).headers
    ensures buffer.Some? ==> m == ComposeAsWritten(sender, receiver, subject, body, buffer, w)
    ensures buffer.None? ==> m.parts == [TextPart(Notice(w))]
  {
    match buffer
    case None => Message(Headers(sender, receiver, subject), [TextPart(Notice(w))])
    case Some(_) => ComposeAsWritten(sender, receiver, subject, body, buffer, w)
  }

  /** Each header names the value it was set to, whatever the three
      arguments are: the multipart headers come first and never shadow
      From, To or Subject. */
  lemma HeadersAsSet(sender: string, receiver: string, subject: string)
    ensures var hs := Headers(sender, receiver, subject);
      && HeaderValue(hs, "Content-Type") == Some("multipart/mixed")
      && HeaderValue(hs, "MIME-Version") == Some("1.0")
      && HeaderValue(hs, "From") == Some(sender)
      && HeaderValue(hs, "To") == Some(receiver)
      && HeaderValue(hs, "Subject") == Some(subject)
  {
    var hs := Headers(sender, receiver, subject);
    var own := [Header("From", sender), Header("To", receiver), Header("Subject", subject)];
    assert hs[1..][1..] == own;
    assert own[1..] == [Header("To", receiver), Header("Subject", subject)];
    assert own[1..][1..] == [Header("Subject", subject)];
    assert "Content-Type" != "MIME-Version" by { assert "Content-Type"[0] != "MIME-Version"[0]; }
    DistinctNames("From", ["Content-Type", "MIME-Version"]);
    DistinctNames("To", ["Content-Type", "MIME-Version", "From"]);
    DistinctNames("Subject", ["Content-Type", "MIME-Version", "From", "To"]);
    assert HeaderValue(own, "From") == Some(sender);
    assert HeaderValue(own[1..], "To") == Some(receiver);
    assert HeaderValue(own[1..][1..], "Subject") == Some(subject);
    assert HeaderValue(own, "To") == Some(receiver);
    assert HeaderValue(own, "Subject") == Some(subject);
  }

  /** A name whose length no other name has differs from all of them. */
  lemma DistinctNames(n: string, others: seq<string>)
    requires forall i :: 0 <= i < |others| ==> |others[i]| != |n|
    ensures forall i :: 0 <= i < |others| ==> others[i] != n
  {
  }

  /** With no buffer the message as written carries no text at all, so the
      window it was about is lost; the intended message carries it. */
  lemma NoticeDropped(sender: string, receiver: string, subject: string, body: string, w: DateWindow)
    requires ' ' !in w.start
    ensures forall p :: p in ComposeAsWritten(sender, receiver, subject, body, None, w).parts ==> !p.TextPart?
    ensures var m := ComposeMessage(sender, receiver, subject, body, None, w);
      m.parts[|m.parts| - 1].TextPart? && ParseNotice(m.parts[|m.parts| - 1].text) == Some(w)
  {
    NoticeRoundTrip(w);
  }

  /** Every intended message ends in a text part from which the reporting
      window can be read back: the notice itself, or the file name the
      attachment note ends with. */
  lemma MessageNamesWindow(sender: string, receiver: string, subject: string, body: string,
                           buffer: Option<Buffer>, w: DateWindow)
    requires ' ' !in w.start && '_' !in w.start
    ensures var m := ComposeMessage(sender, receiver, subject, body, buffer, w);
      && |m.parts| > 0 && m.parts[|m.parts| - 1].TextPart?
      && var t := m.parts[|m.parts| - 1].text;
         if buffer.None? then ParseNotice(t) == Some(w)
         else ParseFileName(t[|t| - |FileName(w)|..]) == Some(w)
  {
    NoticeRoundTrip(w);
    FileNameRoundTrip(w);
  }

  /** The attachment's Content-Disposition names the file the window gives. */
  lemma DispositionNamesWindow(sender: string, receiver: string, subject: string, body: string,
                               b: Buffer, w: DateWindow)
    requires '_' !in w.start
    ensures var d := ComposeMessage(sender, receiver, subject, body, Some(b), w).parts[0].disposition;
      |d| >= 23 && ParseFileName(d[22..|d| - 1]) == Some(w)
  {
    FileNameRoundTrip(w);
  }
}

=== FILE: entities.dfy ===
/** The values handed between the parts of the reporting job. */
module Entities {

  /** One row of the failed-meetings table, its five cells trimmed. */
  datatype MeetingRecord = MeetingRecord(
    meetingId: string,
    email: string,
    meetingType: string,
    subject: string,
    dateTime: string)

  /** The reporting window as the two `YYYY-MM-DD` strings `select_date`
      returns: the target date first, today second. */
  datatype DateWindow = DateWindow(start: string, end: string)

  /** An in-memory byte stream (`io.BytesIO`): its content and the current
      read/write position. */
  datatype Buffer = Buffer(data: seq<bv8>, pos: nat)

  /** The table handed to the spreadsheet writer: the column names and one
      row of cell texts per record. */
  datatype Sheet = Sheet(columns: seq<string>, rows: seq<seq<string>>)
}

=== FILE: extract.dfy ===
/** Row extraction and the page loop: `print_pagination_info` turns the
    table rows on screen into meeting records, `go_through_all_pages`
    short-circuits on the "no failed meetings" marker, reads the summary and
    walks the pages, and `convert_to_excel` flattens the pages into one
    table held in a byte buffer. The browser is a `Screen` value. */
module Extract {
  import opened Text
  import opened Results
  import opened Entities
  import opened Summary
  import opened Paging

  /** The cell texts of one table row, in column order. */
  type Row = seq<string>

  /** What the failed-meetings page shows, as far as the page loop reads it. */
  datatype Screen = Screen(
    noDataMarker: bool,             // "No failed meetings found" is visible
    summary: Option<string>,        // the first span of the table navigation, if present
    shown: seq<Row>,                // the rows shown before any page control is clicked
    afterClick: map<int, seq<Row>>) // the rows shown after clicking page n's control; absent: no such control

  /** The spreadsheet columns, in the order the record dictionaries list them. */
  const Columns: seq<string> := ["Meeting ID", "Email", "Meeting Type", "Subject", "Date Time"]

  /** The cells of a record in column order. */
  function Cells(m: MeetingRecord): seq<string> {
    [m.meetingId, m.email, m.meetingType, m.subject, m.dateTime]
  }

  /** One row's record: cells 0..4, each stripped; a row with fewer than five
      cells makes the cell locator time out. Further cells are ignored. */
  function ToRecord(row: Row): (r: Result<MeetingRecord>)
    ensures r.Ok? <==> |row| >= 5
    ensures r.Err? ==> r.error == CellMissing
    ensures r.Ok? ==> (r.value.meetingId == Strip(row[0]) && r.value.email == Strip(row[1])
      && r.value.meetingType == Strip(row[2]) && r.value.subject == Strip(row[3])
      && r.value.dateTime == Strip(row[4]))
  {
    if |row| < 5 then Err(CellMissing)
    else Ok(MeetingRecord(Strip(row[0]), Strip(row[1]), Strip(row[2]), Strip(row[3]), Strip(row[4])))
  }

  /** Text with no whitespace at either end is recovered exactly from any
      whitespace padding around it: a row whose cells are the record's
      fields, padded, reads back as that record. */
  lemma ToRecordUnpads(m: MeetingRecord, row: Row, leads: seq<string>, trails: seq<string>)
    requires |row| == 5 && |leads| == 5 && |trails| == 5
    requires forall c :: 0 <= c < 5 ==> row[c] == leads[c] + Cells(m)[c] + trails[c]
    requires forall c :: 0 <= c < 5 ==> AllSpace(leads[c]) && AllSpace(trails[c])
    requires forall c :: 0 <= c < 5 ==> Unpadded(Cells(m)[c])
    ensures ToRecord(row) == Ok(m)
  {
    var cells := Cells(m);
    StripPadded(leads[0], cells[0], trails[0]);
    StripPadded(leads[1], cells[1], trails[1]);
    StripPadded(leads[2], cells[2], trails[2]);
    StripPadded(leads[3], cells[3], trails[3]);
    StripPadded(leads[4], cells[4], trails[4]);
  }

  /** `print_pagination_info`: one record per row, in row order; the first
      short row ends the scrape. */
  function ScrapeRows(rows: seq<Row>): (r: Result<seq<MeetingRecord>>)
    ensures r.Ok? <==> forall i :: 0 <= i < |rows| ==> |rows[i]| >= 5
    ensures r.Err? ==> r.error == CellMissing
    ensures r.Ok? ==> |r.value| == |rows|
    ensures r.Ok? ==> forall i :: 0 <= i < |rows| ==> ToRecord(rows[i]) == Ok(r.value[i])
  {
    if |rows| == 0 then Ok([])
    else
      var init := rows[..|rows| - 1];
      var front := ScrapeRows(init);
      var last := ToRecord(rows[|rows| - 1]);
      assert forall i :: 0 <= i < |init| ==> init[i] == rows[i];
      if front.Err? then front
      else if last.Err? then Err(last.error)
      else Ok(front.value + [last.value])
  }

  /** Page `page` can be reached and scraped: its control exists and every
      row it shows has five cells. */
  predicate PageReadable(screen: Screen, page: int) {
    page in screen.afterClick && ScrapeRows(screen.afterClick[page]).Ok?
  }

  /** Clicking page `page`'s control shows rows that read as `records`. */
  predicate ScrapedAs(screen: Screen, page: int, records: seq<MeetingRecord>) {
    page in screen.afterClick && ScrapeRows(screen.afterClick[page]) == Ok(records)
  }

  /** Every page control before `p` exists and shows readable rows. */
  predicate ReadableBefore(screen: Screen, p: int) {
    forall q :: 1 <= q < p ==> PageReadable(screen, q)
  }

  /** The page loop of `go_through_all_pages` for `pages` pages. `trace` lists
      the clicks and scrapes in the order they are attempted; `collected` is
      the list of pages of records it builds. A failure is raised at the
      first page whose control is missing or whose rows are short. */
  method CollectPages(screen: Screen, pages: int) returns (trace: seq<Action>, r: Result<seq<seq<MeetingRecord>>>)
    ensures trace <= Schedule(pages)
    ensures r.Ok? ==> trace == Schedule(pages)
    ensures pages == 1 ==> trace == [ScrapeTable]
    ensures pages == 1 ==> r.Ok? == ScrapeRows(screen.shown).Ok?
    ensures pages == 1 && r.Ok? ==> r.value == [ScrapeRows(screen.shown).value]
    ensures pages != 1 ==> (r.Ok? <==> forall p :: 1 <= p <= pages ==> PageReadable(screen, p))
    ensures pages != 1 && r.Ok? ==> |r.value| == Max0(pages)
    ensures pages != 1 && r.Ok? ==> forall k :: 0 <= k < |r.value| ==> ScrapedAs(screen, k + 1, r.value[k])
    ensures r.Err? ==> (r.error == CellMissing
      || (r.error.PageButtonMissing? && 1 <= r.error.page <= pages && r.error.page !in screen.afterClick))
    ensures r.Err? && r.error.PageButtonMissing? ==>
      (forall q :: 1 <= q < r.error.page ==> PageReadable(screen, q)) && |trace| == 2 * r.error.page - 1
    ensures r.Err? && pages != 1 && r.error == CellMissing ==>
      |trace| >= 2 && |trace| % 2 == 0 && |trace| / 2 <= pages
      && |trace| / 2 in screen.afterClick && !PageReadable(screen, |trace| / 2)
      && (forall q :: 1 <= q < |trace| / 2 ==> PageReadable(screen, q))
  {
    if pages == 1 {
      trace := [ScrapeTable];
      var rows := ScrapeRows(screen.shown);
      if rows.Err? {
        r := Err(rows.error);
      } else {
        r := Ok([rows.value]);
      }
      return;
    }
    var failed: int;
    trace, r, failed := PageLoop(screen, pages);
    if r.Err? {
      assert !PageReadable(screen, failed);
    }
  }

  /** `for page_num in range(1, pages + 1)`: click, then scrape. On failure
      `failed` is the page it stopped at. */
  method PageLoop(screen: Screen, pages: int) returns (trace: seq<Action>, r: Result<seq<seq<MeetingRecord>>>, failed: int)
    requires pages != 1
    ensures trace <= Schedule(pages)
    ensures r.Ok? ==> trace == Schedule(pages) && ReadableBefore(screen, Max0(pages) + 1)
    ensures r.Ok? ==> |r.value| == Max0(pages)
    ensures r.Ok? ==> forall k :: 0 <= k < |r.value| ==> ScrapedAs(screen, k + 1, r.value[k])
    ensures r.Err? ==> 1 <= failed <= pages && ReadableBefore(screen, failed) && !PageReadable(screen, failed)
    ensures r.Err? && failed !in screen.afterClick ==> r.error == PageButtonMissing(failed) && |trace| == 2 * failed - 1
    ensures r.Err? && failed in screen.afterClick ==> r.error == CellMissing && |trace| == 2 * failed
  {
    var sched := Schedule(pages);
    var collected: seq<seq<MeetingRecord>> := [];
    trace := [];
    failed := 0;
    var p := 1;
    while p <= pages
      invariant 1 <= p <= Max0(pages) + 1
      invariant |sched| == 2 * Max0(pages)
      invariant trace == sched[..2 * (p - 1)]
      invariant |collected| == p - 1
      invariant ReadableBefore(screen, p)
      invariant forall k :: 0 <= k < |collected| ==> ScrapedAs(screen, k + 1, collected[k])
    {
      trace := trace + [ClickPage(p)];
      assert trace == sched[..2 * p - 1];
      if p !in screen.afterClick {
        r, failed := Err(PageButtonMissing(p)), p;
        return;
      }
      trace := trace + [ScrapeTable];
      assert trace == sched[..2 * p];
      var rows := ScrapeRows(screen.afterClick[p]);
      if rows.Err? {
        r, failed := Err(rows.error), p;
        return;
      }
      assert ScrapedAs(screen, p, rows.value);
      collected := collected + [rows.value];
      assert collected[p - 1] == rows.value;
      p := p + 1;
    }
    assert trace == sched;
    r := Ok(collected);
  }

  /** `[record for sublist in data for record in sublist]`. */
  function Flatten(pages: seq<seq<MeetingRecord>>): seq<MeetingRecord> {
    if |pages| == 0 then [] else pages[0] + Flatten(pages[1..])
  }

  function TotalRows(pages: seq<seq<MeetingRecord>>): nat {
    if |pages| == 0 then 0 else |pages[0]| + TotalRows(pages[1..])
  }

  /** Flattening keeps every record: its length is the sum of the page lengths. */
  lemma {:induction false} FlattenLength(pages: seq<seq<MeetingRecord>>)
    ensures |Flatten(pages)| == TotalRows(pages)
  {
    if |pages| > 0 {
      FlattenLength(pages[1..]);
    }
  }

  /** Flattening keeps the order: row `j` of page `i` sits after all rows of
      the pages before it. */
  lemma {:induction false} FlattenOrder(pages: seq<seq<MeetingRecord>>, i: nat, j: nat)
    requires i < |pages| && j < |pages[i]|
    ensures TotalRows(pages[..i]) + j < |Flatten(pages)|
    ensures Flatten(pages)[TotalRows(pages[..i]) + j] == pages[i][j]
  {
    FlattenLength(pages);
    if i == 0 {
      assert pages[..0] == [];
    } else {
      FlattenOrder(pages[1..], i - 1, j);
      assert pages[1..][..i - 1] == pages[..i][1..];
      assert pages[..i][0] == pages[0];
    }
  }

  /** The table `convert_to_excel` hands to the writer holds every scraped
      record once, page by page and row by row within a page, and has the
      five columns unless no record was scraped. */
  lemma {:induction false} ExportedSheet(pages: seq<seq<MeetingRecord>>)
    ensures |ToSheet(Flatten(pages)).rows| == TotalRows(pages)
    ensures ToSheet(Flatten(pages)).columns == (if TotalRows(pages) == 0 then [] else Columns)
    ensures forall i, j :: 0 <= i < |pages| && 0 <= j < |pages[i]| ==> SheetRowOf(pages, i, j)
  {
    FlattenLength(pages);
    forall i, j | 0 <= i < |pages| && 0 <= j < |pages[i]|
      ensures SheetRowOf(pages, i, j)
    {
      FlattenOrder(pages, i, j);
      var k := TotalRows(pages[..i]) + j;
      assert ToSheet(Flatten(pages)).rows[k] == Cells(Flatten(pages)[k]);
    }
  }

  /** Row `j` of page `i` is the sheet row after all rows of the earlier pages. */
  predicate SheetRowOf(pages: seq<seq<MeetingRecord>>, i: int, j: int)
    requires 0 <= i < |pages| && 0 <= j < |pages[i]|
  {
    var k := TotalRows(pages[..i]) + j;
    k < |ToSheet(Flatten(pages)).rows| && ToSheet(Flatten(pages)).rows[k] == Cells(pages[i][j])
  }

  /** `pd.DataFrame(flat_data)`: one row per record with the cells in column
      order. A frame built from no records has no columns at all. */
  function ToSheet(records: seq<MeetingRecord>): (s: Sheet)
    ensures |s.rows| == |records|
    ensures s.columns == (if |records| == 0 then [] else Columns)
    ensures forall i :: 0 <= i < |records| ==> |s.rows[i]| == |Columns| && s.rows[i] == Cells(records[i])
  {
    Sheet(if |records| == 0 then [] else Columns, seq(|records|, i requires 0 <= i < |records| => Cells(records[i])))
  }

  /** `convert_to_excel`: the flattened pages written by `encode` (the
      spreadsheet writer) into a fresh buffer, whose position is left at the
      end of what was written. */
  function ConvertToExcel(pages: seq<seq<MeetingRecord>>, encode: Sheet -> seq<bv8>): (b: Buffer)
    ensures b.data == encode(ToSheet(Flatten(pages)))
    ensures b.pos == |b.data|
  {
    var data := encode(ToSheet(Flatten(pages)));
    Buffer(data, |data|)
  }

  /** The page count `go_through_all_pages` derives before the loop, or why
      it stops first. */
  function PlannedPages(screen: Screen): (r: Result<int>)
    ensures r.Err? <==> (screen.summary.None? || ParseSummary(screen.summary.value).Err?
      || PerPage(ParseSummary(screen.summary.value).value) == 0)
    ensures r.Err? ==> r.error == SummaryMissing || r.error == SummaryUnparsable || r.error == ZeroPageSize
    ensures r.Ok? ==> PageCount(ParseSummary(screen.summary.value).value) == r
    ensures screen.summary.None? ==> r == Err(SummaryMissing)
    ensures screen.summary.Some? && ParseSummary(screen.summary.value).Err? ==> r == Err(SummaryUnparsable)
    ensures screen.summary.Some? && ParseSummary(screen.summary.value).Ok? ==>
      r == PageCount(ParseSummary(screen.summary.value).value)
  {
    match screen.summary
    case None => Err(SummaryMissing)
    case Some(text) =>
      match ParseSummary(text)
      case Err(e) => Err(e)
      case Ok(p) => PageCount(p)
  }

  /** The page shows no marker, its summary plans a page count, and every
      page the loop will visit can be read: the single shown table when there
      is one page, otherwise the control and rows of pages 1..N. */
  predicate PagesReadable(screen: Screen) {
    && !screen.noDataMarker
    && PlannedPages(screen).Ok?
    && if PlannedPages(screen).value == 1 then ScrapeRows(screen.shown).Ok?
       else forall p :: 1 <= p <= PlannedPages(screen).value ==> PageReadable(screen, p)
  }

  /** `go_through_all_pages`: `None` when the marker is showing, and then
      nothing else is read; otherwise a buffer, even when the loop scraped
      no page, or the first error raised on the way. */
  method GoThroughAllPages(screen: Screen, encode: Sheet -> seq<bv8>)
    returns (trace: seq<Action>, collected: seq<seq<MeetingRecord>>, r: Result<Option<Buffer>>)
    ensures r == Ok(None) <==> screen.noDataMarker
    ensures screen.noDataMarker ==> trace == []
    ensures !screen.noDataMarker && PlannedPages(screen).Err? ==>
      r == Err(PlannedPages(screen).error) && trace == []
    ensures !screen.noDataMarker && PlannedPages(screen).Ok? ==>
      trace <= Schedule(PlannedPages(screen).value)
    ensures !screen.noDataMarker ==> (r.Ok? <==> PagesReadable(screen))
    ensures r.Ok? && !screen.noDataMarker ==>
      PlannedPages(screen).Ok? && trace == Schedule(PlannedPages(screen).value)
      && r.value == Some(ConvertToExcel(collected, encode))
      && |collected| == (if PlannedPages(screen).value == 1 then 1 else Max0(PlannedPages(screen).value))
    ensures r.Ok? && !screen.noDataMarker && PlannedPages(screen).value == 1 ==>
      |collected| == 1 && ScrapeRows(screen.shown) == Ok(collected[0])
    ensures r.Ok? && !screen.noDataMarker && PlannedPages(screen).value != 1 ==>
      forall k :: 0 <= k < |collected| ==> ScrapedAs(screen, k + 1, collected[k])
  {
    collected := [];
    if screen.noDataMarker {
      return [], collected, Ok(None);
    }
    var planned := PlannedPages(screen);
    if planned.Err? {
      return [], collected, Err(planned.error);
    }
    var pages;
    trace, pages := CollectPages(screen, planned.value);
    if pages.Err? {
      r := Err(pages.error);
      return;
    }
    collected := pages.value;
    r := Ok(Some(ConvertToExcel(collected, encode)));
  }
}

=== FILE: job.dfy ===
/** The reporting job `run` drives: select the window, collect the failed
    meetings, mail the result, log out. The browser session, the login and
    the logout clicks are not part of this model; what is kept is the order
    of the steps and what an exception does to it: `run` has no handler, so
    an exception raised before the mail is sent ends the job before the
    logout. */
module Job {
  import opened Results
  import opened Calendar
  import opened Entities
  import opened DateSelect
  import opened Paging
  import opened Extract
  import opened Email

  /** `DAY_FREQUENCY` when the environment does not set it. */
  const DefaultDayFrequency: int := 1

  /** The settings the job reads from its environment. */
  datatype Config = Config(sender: string, receiver: string, daysBefore: int)

  /** How a run ends: it finishes with the message handed to the mail
      server, whether the logout was reached and the exception that ended
      the run early; or it is stuck in the month-stepping loop of
      `select_date`, which clicks "previous" for ever when the target's
      month lies after today's. */
  datatype Outcome =
    | Finished(sent: Option<Message>, loggedOut: bool, failure: Option<Error>)
    | Stuck

  /** A `YYYY-MM-DD` string holds neither `_` nor a space, so the file name
      and the notice built from a window can be read back. */
  lemma IsoPlain(d: Date)
    requires Valid(d)
    ensures '_' !in Iso(d) && ' ' !in Iso(d)
  {
    var s := Iso(d);
    forall k | 0 <= k < |s| ensures s[k] != '_' && s[k] != ' ' {
      if k < 4 {
        assert s[..4][k] == s[k];
      } else if 4 < k < 7 {
        assert s[5..7][k - 5] == s[k];
      } else if k > 7 {
        assert s[8..][k - 8] == s[k];
      }
    }
  }

  /** The month-stepping loop of `select_date` ends for this target. */
  predicate MonthReached(today: Date, sel: Result<Selection>)
    requires Valid(today)
    requires sel.Ok? ==> Valid(sel.value.target)
  {
    sel.Ok? && MonthClicks(today, sel.value.target).Some?
  }

  /** A run that finished without an exception: it logged out after handing
      over a message with the configured From, To and Subject, which carries
      an attachment exactly when there was data, and ends in a text part
      from which the window `w` reads back. */
  predicate Delivered(o: Outcome, cfg: Config, w: DateWindow, noData: bool) {
    && o.Finished? && o.failure.None? && o.loggedOut && o.sent.Some?
    && HeaderValue(o.sent.value.headers, "From") == Some(cfg.sender)
    && HeaderValue(o.sent.value.headers, "To") == Some(cfg.receiver)
    && HeaderValue(o.sent.value.headers, "Subject") == Some(DefaultSubject)
    && (noData <==> forall p :: p in o.sent.value.parts ==> !p.Attachment?)
    && var parts := o.sent.value.parts;
       && |parts| > 0 && parts[|parts| - 1].TextPart?
       && var t := parts[|parts| - 1].text;
          if noData then ParseNotice(t) == Some(w)
          else |t| >= |FileName(w)| && ParseFileName(t[|t| - |FileName(w)|..]) == Some(w)
  }

  /** A run that an exception ended: no message and no logout. */
  predicate Aborted(o: Outcome) {
    o.Finished? && o.failure.Some? && o.sent.None? && !o.loggedOut
  }

  /** One run of the job against a page that shows `screen`, with `today`
      the date the clock gives and `encode` the spreadsheet writer. The
      message is the intended one (`ComposeMessage`). `trace` is what the
      page loop clicked and scraped. */
  method Run(cfg: Config, today: Date, screen: Screen, encode: Sheet -> seq<bv8>)
    returns (o: Outcome, trace: seq<Action>)
    requires Valid(today)
    ensures SelectDate(today, cfg.daysBefore).Err? ==> o == Finished(None, false, Some(DateOverflow)) && trace == []
    ensures o.Stuck? <==> SelectDate(today, cfg.daysBefore).Ok? && !MonthReached(today, SelectDate(today, cfg.daysBefore))
    ensures o.Stuck? ==> trace == []
    ensures o.Finished? ==> Aborted(o) || Delivered(o, cfg, SelectDate(today, cfg.daysBefore).value.window, screen.noDataMarker)
    ensures o.Finished? && o.failure.None? ==> MonthReached(today, SelectDate(today, cfg.daysBefore))
    ensures screen.noDataMarker && MonthReached(today, SelectDate(today, cfg.daysBefore)) ==>
      Delivered(o, cfg, SelectDate(today, cfg.daysBefore).value.window, true) && trace == []
    ensures PagesReadable(screen) && MonthReached(today, SelectDate(today, cfg.daysBefore)) ==>
      Delivered(o, cfg, SelectDate(today, cfg.daysBefore).value.window, false)
    ensures !screen.noDataMarker && !PagesReadable(screen) && MonthReached(today, SelectDate(today, cfg.daysBefore)) ==>
      Aborted(o)
    ensures !screen.noDataMarker && PlannedPages(screen).Err? && MonthReached(today, SelectDate(today, cfg.daysBefore)) ==>
      o == Finished(None, false, Some(PlannedPages(screen).error)) && trace == []
  {
    var sel := SelectDate(today, cfg.daysBefore);
    if sel.Err? {
      return Finished(None, false, Some(sel.error)), [];
    }
    if MonthClicks(today, sel.value.target).None? {
      return Stuck, [];
    }
    assert MonthReached(today, sel);
    var w := sel.value.window;
    IsoPlain(sel.value.target);
    o, trace := Report(cfg, w, screen, encode);
  }

  /** The rest of `run` once the window is selected: collect the pages, mail
      the result, log out. */
  method Report(cfg: Config, w: DateWindow, screen: Screen, encode: Sheet -> seq<bv8>)
    returns (o: Outcome, trace: seq<Action>)
    requires ' ' !in w.start && '_' !in w.start
    ensures Aborted(o) || Delivered(o, cfg, w, screen.noDataMarker)
    ensures screen.noDataMarker ==> Delivered(o, cfg, w, true) && trace == []
    ensures PagesReadable(screen) ==> Delivered(o, cfg, w, false)
    ensures !screen.noDataMarker && !PagesReadable(screen) ==> Aborted(o)
    ensures !screen.noDataMarker && PlannedPages(screen).Err? ==>
      o == Finished(None, false, Some(PlannedPages(screen).error)) && trace == []
  {
    var collected, data;
    trace, collected, data := GoThroughAllPages(screen, encode);
    if data.Err? {
      return Finished(None, false, Some(data.error)), trace;
    }
    var msg := ComposeMessage(cfg.sender, cfg.receiver, DefaultSubject, DefaultBody, data.value, w);
    o := Finished(Some(msg), true, None);
    ComposedIsDelivered(cfg, w, data.value);
  }

  /** Sending the intended message for `buffer` and logging out delivers it. */
  lemma ComposedIsDelivered(cfg: Config, w: DateWindow, buffer: Option<Buffer>)
    requires ' ' !in w.start && '_' !in w.start
    ensures Delivered(Finished(Some(ComposeMessage(cfg.sender, cfg.receiver, DefaultSubject, DefaultBody, buffer, w)), true, None),
                      cfg, w, buffer.None?)
  {
    var msg := ComposeMessage(cfg.sender, cfg.receiver, DefaultSubject, DefaultBody, buffer, w);
    MessageNamesWindow(cfg.sender, cfg.receiver, DefaultSubject, DefaultBody, buffer, w);
    if buffer.Some? {
      assert msg.parts[0].Attachment?;
    }
  }

  /** With the default frequency the window runs from yesterday to today. */
  lemma DefaultWindowIsYesterday(today: Date)
    requires Valid(today) && today != FirstDate
    ensures SelectDate(today, DefaultDayFrequency).Ok?
    ensures Ordinal(SelectDate(today, DefaultDayFrequency).value.target) == Ordinal(today) - 1
  {
    OrdinalRange(today);
    if Ordinal(today) == 1 {
      assert Ordinal(FirstDate) == 1;
      OrdinalInjective(today, FirstDate);
    }
  }
}

=== FILE: paging.dfy ===
/** Page arithmetic of `go_through_all_pages`: the page size and page
    count derived from the summary, and the order in which the table pages
    are clicked and scraped. */
module Paging {
  import opened Results
  import opened Summary

  /** `per_page = end - start + 1`; zero or negative when the summary's
      range runs backwards. */
  function PerPage(p: PageSummary): int {
    p.last - p.first + 1
  }

  /** Python `math.ceil(a / b)` taken exactly: the least `q` with
      `q * b >= a` when `b > 0`, and the least `q` with `q * b <= a` when
      `b < 0`. */
  function CeilDiv(a: int, b: int): (q: int)
    requires b != 0
    ensures b > 0 ==> (q - 1) * b < a <= q * b
    ensures b < 0 ==> q * b <= a < (q - 1) * b
  {
    if b > 0 then
      var f, r := (-a) / b, (-a) % b;
      assert -a == f * b + r && 0 <= r < b;
      assert (-f) * b == a + r;
      assert (-f - 1) * b == a + r - b;
      -f
    else
      var f, r := a / (-b), a % (-b);
      assert a == f * (-b) + r && 0 <= r < -b;
      assert (-f) * b == a - r;
      assert (-f - 1) * b == a - r - b;
      -f
  }

  /** `total_pages = math.ceil(total / per_page)`, with the
      `ZeroDivisionError` a zero page size raises. */
  function PageCount(p: PageSummary): (r: Result<int>)
    ensures r.Err? <==> PerPage(p) == 0
    ensures r.Err? ==> r.error == ZeroPageSize
    ensures r.Ok? && PerPage(p) > 0 ==>
      r.value >= 0 && (r.value - 1) * PerPage(p) < p.total <= r.value * PerPage(p)
    ensures r.Ok? && PerPage(p) < 0 ==> r.value <= 0
    ensures r.Ok? && p.total == 0 ==> r.value == 0
  {
    var per := PerPage(p);
    if per == 0 then Err(ZeroPageSize)
    else
      CeilDivSigns(p.total, per);
      Ok(CeilDiv(p.total, per))
  }

  /** The ceiling of a non-negative quotient has the divisor's sign, and is
      zero for a zero dividend. */
  lemma CeilDivSigns(a: nat, b: int)
    requires b != 0
    ensures b > 0 ==> CeilDiv(a, b) >= 0
    ensures b < 0 ==> CeilDiv(a, b) <= 0
    ensures a == 0 ==> CeilDiv(a, b) == 0
  {
  }

  /** The source's worked example: rows 21-30 of 43 make pages of ten, five of them. */
  lemma PartialPageExample()
    ensures PerPage(PageSummary(21, 30, 43)) == 10 && PageCount(PageSummary(21, 30, 43)) == Ok(5)
  {
    assert CeilDiv(43, 10) == 5;
  }

  /** All 43 rows on one page make a single page. */
  lemma SinglePageExample()
    ensures PerPage(PageSummary(1, 43, 43)) == 43 && PageCount(PageSummary(1, 43, 43)) == Ok(1)
  {
    assert CeilDiv(43, 43) == 1;
  }

  /** One step of the page loop: a click on a numbered page control, or a
      scrape of the rows the table shows. */
  datatype Action = ClickPage(page: int) | ScrapeTable

  function Max0(n: int): nat {
    if n > 0 then n else 0
  }

  /** The `k`-th step of the multi-page loop: click page `k / 2 + 1`, then scrape. */
  function LoopStep(k: int): Action {
    if k % 2 == 0 then ClickPage(k / 2 + 1) else ScrapeTable
  }

  /** What the page loop does for `pages` pages: one scrape and no click
      for a single page, otherwise `for page_num in range(1, pages + 1)`. */
  function Schedule(pages: int): seq<Action> {
    if pages == 1 then [ScrapeTable] else seq(2 * Max0(pages), k => LoopStep(k))
  }

  function Scrapes(acts: seq<Action>): nat {
    if |acts| == 0 then 0
    else Scrapes(acts[..|acts| - 1]) + (if acts[|acts| - 1] == ScrapeTable then 1 else 0)
  }

  /** The pages clicked, in the order they are clicked. */
  function Clicked(acts: seq<Action>): seq<int> {
    if |acts| == 0 then []
    else Clicked(acts[..|acts| - 1]) + (if acts[|acts| - 1].ClickPage? then [acts[|acts| - 1].page] else [])
  }

  /** The table is scraped once for a single page and once per page
      otherwise; no page count below one scrapes anything. */
  lemma ScheduleScrapeCount(pages: int)
    ensures Scrapes(Schedule(pages)) == if pages == 1 then 1 else Max0(pages)
  {
    if pages != 1 {
      LoopScrapes(pages, 2 * Max0(pages));
      assert Schedule(pages)[..2 * Max0(pages)] == Schedule(pages);
    } else {
      assert [ScrapeTable][..0] == [];
    }
  }

  lemma {:induction false} LoopScrapes(pages: int, j: nat)
    requires pages != 1 && j <= 2 * Max0(pages)
    ensures Scrapes(Schedule(pages)[..j]) == j / 2
  {
    if j > 0 {
      var s := Schedule(pages);
      assert s[..j][..j - 1] == s[..j - 1];
      LoopScrapes(pages, j - 1);
    }
  }

  /** With more or fewer than one page, the controls clicked are pages 1, 2,
      ..., `pages` in increasing order, each followed directly by a scrape;
      with one page nothing is clicked. */
  lemma ScheduleClickOrder(pages: int)
    ensures pages == 1 ==> Clicked(Schedule(pages)) == []
    ensures pages != 1 ==> Clicked(Schedule(pages)) == seq(Max0(pages), i => i + 1)
    ensures forall k :: 0 <= k < |Schedule(pages)| && Schedule(pages)[k].ClickPage? ==>
      k + 1 < |Schedule(pages)| && Schedule(pages)[k + 1] == ScrapeTable
  {
    if pages != 1 {
      LoopClicks(pages, 2 * Max0(pages));
      assert Schedule(pages)[..2 * Max0(pages)] == Schedule(pages);
    } else {
      assert [ScrapeTable][..0] == [];
    }
  }

  lemma {:induction false} LoopClicks(pages: int, j: nat)
    requires pages != 1 && j <= 2 * Max0(pages)
    ensures Clicked(Schedule(pages)[..j]) == seq((j + 1) / 2, i => i + 1)
  {
    if j > 0 {
      var s := Schedule(pages);
      assert s[..j][..j - 1] == s[..j - 1];
      LoopClicks(pages, j - 1);
    }
  }
}

=== FILE: results.dfy ===
/** Failure-carrying values shared by every part of the reporting job.
    `Result` stands for a Python call that either returns or raises; the
    `Error` constructors name the exceptions the modelled code can raise. */
module Results {

  /** The exceptions the modelled code can end in. */
  datatype Error =
    | DateOverflow            // OverflowError: a date outside years 1..9999
    | SummaryMissing          // the pagination summary element never appears (locator timeout)
    | SummaryUnparsable       // ValueError("Could not parse pagination summary")
    | ZeroPageSize            // ZeroDivisionError in total / per_page
    | PageButtonMissing(page: int) // the numbered page control never appears (locator timeout)
    | CellMissing             // a table row has fewer than five cells (locator timeout)

  datatype Option<+T> = None | Some(value: T)

  datatype Result<+T> = Ok(value: T) | Err(error: Error)
}

=== FILE: summary.dfy ===
/** The pagination summary reader of `go_through_all_pages`: the first
    match of `(\d+)-(\d+)\s+of\s+(\d+)` in the summary text ("Showing 21-30
    of 43"), its three groups read as integers, and `ValueError` when the
    text holds no match. */
module Summary {
  import opened Text
  import opened Results

  /** The three numbers of a summary: first row shown, last row shown, rows in all. */
  datatype PageSummary = PageSummary(first: nat, last: nat, total: nat)

  /** Where the pieces of one occurrence of the pattern lie in the text:
        [pos, dash)        digits, the first group
        dash               '-'
        (dash, gap)        digits, the second group
        [gap, ofAt)        whitespace
        ofAt, ofAt + 1     "of"
        [ofAt + 2, third)  whitespace
        [third, stop)      digits, the third group */
  datatype Match = Match(pos: nat, dash: nat, gap: nat, ofAt: nat, third: nat, stop: nat)

  /** `m` marks an occurrence of the pattern in `s`. */
  ghost predicate Occurs(s: string, m: Match) {
    && m.pos < m.dash && m.dash + 1 < m.gap && m.gap < m.ofAt
    && m.ofAt + 2 < m.third && m.third < m.stop <= |s|
    && (forall k :: m.pos <= k < m.dash ==> IsDigit(s[k]))
    && s[m.dash] == '-'
    && (forall k :: m.dash < k < m.gap ==> IsDigit(s[k]))
    && (forall k :: m.gap <= k < m.ofAt ==> IsSpace(s[k]))
    && s[m.ofAt] == 'o' && s[m.ofAt + 1] == 'f'
    && (forall k :: m.ofAt + 2 <= k < m.third ==> IsSpace(s[k]))
    && (forall k :: m.third <= k < m.stop ==> IsDigit(s[k]))
  }

  /** The last group of `m` takes every digit it can, as the greedy `\d+` does. */
  ghost predicate Greedy(s: string, m: Match)
    requires m.stop <= |s|
  {
    m.stop == |s| || !IsDigit(s[m.stop])
  }

  /** The regular expression engine tried at position `i`. Every repeated
      class is followed by a character outside it, so each takes its longest
      run, and backtracking cannot find another way through. */
  function MatchAt(s: string, i: nat): (r: Option<Match>)
    requires i <= |s|
    ensures r.Some? ==> r.value.pos == i
  {
    var dash := Span(s, i, IsDigit);
    if dash == i || dash == |s| || s[dash] != '-' then None
    else
      var gap := Span(s, dash + 1, IsDigit);
      if gap == dash + 1 then None
      else
        var ofAt := Span(s, gap, IsSpace);
        if ofAt == gap || ofAt + 2 > |s| || s[ofAt] != 'o' || s[ofAt + 1] != 'f' then None
        else
          var third := Span(s, ofAt + 2, IsSpace);
          if third == ofAt + 2 then None
          else
            var stop := Span(s, third, IsDigit);
            if stop == third then None
            else Some(Match(i, dash, gap, ofAt, third, stop))
  }

  /** What the engine finds at a position is an occurrence of the pattern
      there, whose last group runs as far as the digits go. */
  lemma MatchAtSound(s: string, i: nat)
    requires i <= |s|
    ensures MatchAt(s, i).Some? ==> Occurs(s, MatchAt(s, i).value) && Greedy(s, MatchAt(s, i).value)
  {
  }

  /** Every occurrence of the pattern at a position is found there, with the
      same pieces except that the last group runs as far as the digits go. */
  lemma MatchAtFindsOccurrence(s: string, m: Match)
    requires Occurs(s, m)
    ensures MatchAt(s, m.pos) == Some(m.(stop := Span(s, m.third, IsDigit)))
  {
    assert !IsDigit(s[m.dash]);
    SpanIsRunEnd(s, m.pos, m.dash, IsDigit);
    assert IsSpace(s[m.gap]) && !IsDigit(s[m.gap]);
    SpanIsRunEnd(s, m.dash + 1, m.gap, IsDigit);
    assert !IsSpace(s[m.ofAt]);
    SpanIsRunEnd(s, m.gap, m.ofAt, IsSpace);
    assert IsDigit(s[m.third]) && !IsSpace(s[m.third]);
    SpanIsRunEnd(s, m.ofAt + 2, m.third, IsSpace);
    var stop := Span(s, m.third, IsDigit);
    assert stop > m.third;
    MatchAtSteps(s, m.pos, m.dash, m.gap, m.ofAt, m.third, stop);
  }

  /** `MatchAt` evaluated once each run end is known. */
  lemma MatchAtSteps(s: string, i: nat, dash: nat, gap: nat, ofAt: nat, third: nat, stop: nat)
    requires i < dash < |s| && s[dash] == '-' && Span(s, i, IsDigit) == dash
    requires dash + 1 < gap <= |s| && Span(s, dash + 1, IsDigit) == gap
    requires gap < ofAt && ofAt + 2 <= |s| && Span(s, gap, IsSpace) == ofAt
    requires s[ofAt] == 'o' && s[ofAt + 1] == 'f'
    requires ofAt + 2 < third <= |s| && Span(s, ofAt + 2, IsSpace) == third
    requires third < stop <= |s| && Span(s, third, IsDigit) == stop
    ensures MatchAt(s, i) == Some(Match(i, dash, gap, ofAt, third, stop))
  {
  }

  /** Python `re.search`: the match at the first position, from `start`
      on, where there is one. */
  function Search(s: string, start: nat): (r: Option<Match>)
    requires start <= |s|
    ensures r.Some? ==> start <= r.value.pos <= |s| && MatchAt(s, r.value.pos) == r
    decreases |s| - start
  {
    var here := MatchAt(s, start);
    if here.Some? then here
    else if start == |s| then None
    else Search(s, start + 1)
  }

  /** The search finds a match whenever some position from `start` on has
      one, and it starts no later than that position. */
  lemma {:induction false} SearchFirst(s: string, start: nat, i: nat)
    requires start <= i <= |s| && MatchAt(s, i).Some?
    ensures Search(s, start).Some? && Search(s, start).value.pos <= i
    decreases i - start
  {
    SearchStep(s, start);
    if MatchAt(s, start).None? {
      SearchFirst(s, start + 1, i);
    }
  }

  lemma SearchStep(s: string, start: nat)
    requires start <= |s|
    ensures MatchAt(s, start).Some? ==> Search(s, start) == MatchAt(s, start)
    ensures MatchAt(s, start).None? && start < |s| ==> Search(s, start) == Search(s, start + 1)
  {
  }

  /** The integers of a match's three groups. */
  function Groups(s: string, m: Match): PageSummary
    requires Occurs(s, m)
  {
    PageSummary(NatOf(s[m.pos..m.dash]), NatOf(s[m.dash + 1..m.gap]), NatOf(s[m.third..m.stop]))
  }

  /** `map(int, re.search(pattern, text).groups())`, or the `ValueError`
      raised when there is no match. */
  function ParseSummary(s: string): (r: Result<PageSummary>)
    ensures r.Err? ==> r.error == SummaryUnparsable
  {
    match Search(s, 0)
    case None => Err(SummaryUnparsable)
    case Some(m) =>
      MatchAtSound(s, m.pos);
      Ok(Groups(s, m))
  }

  /** The summary is refused exactly when the pattern occurs nowhere in it. */
  lemma ParseFailsIffNoOccurrence(s: string)
    ensures ParseSummary(s).Err? <==> forall m :: !Occurs(s, m)
  {
    if ParseSummary(s).Err? {
      forall m | Occurs(s, m) ensures false {
        MatchAtFindsOccurrence(s, m);
        SearchFirst(s, 0, m.pos);
      }
    } else {
      var m := Search(s, 0).value;
      MatchAtSound(s, m.pos);
      assert Occurs(s, m);
    }
  }

  /** The numbers read come from the leftmost occurrence: the parser succeeds
      whenever the pattern occurs, never starts later than any occurrence,
      and reads the groups of an occurrence that starts first (its last
      group taken whole). */
  lemma ParseTakesLeftmost(s: string, m: Match)
    requires Occurs(s, m)
    ensures ParseSummary(s).Ok?
    ensures Search(s, 0).Some? && Search(s, 0).value.pos <= m.pos
    ensures Search(s, 0).value.pos == m.pos && Greedy(s, m) ==> ParseSummary(s) == Ok(Groups(s, m))
  {
    MatchAtFindsOccurrence(s, m);
    SearchFirst(s, 0, m.pos);
    if Greedy(s, m) {
      SpanIsRunEnd(s, m.third, m.stop, IsDigit);
    }
  }

  /** When the first position with a match is `k`, the search returns the
      match at `k`. */
  lemma SearchFindsFirst(s: string, k: nat)
    requires k <= |s| && MatchAt(s, k).Some?
    requires forall i :: 0 <= i < k ==> MatchAt(s, i).None?
    ensures Search(s, 0) == MatchAt(s, k)
  {
    SearchFirst(s, 0, k);
    var r := Search(s, 0);
    assert MatchAt(s, r.value.pos).Some?;
  }

  /** "<first>-<last> of <total>" as the table footer writes it. */
  function Render(p: PageSummary): string {
    Dec(p.first) + "-" + Dec(p.last) + " of " + Dec(p.total)
  }

  /** A rendered summary with digit-free text before it and no digit right
      after it reads back as its three numbers. */
  lemma ParseRendered(prefix: string, p: PageSummary, suffix: string)
    requires forall k :: 0 <= k < |prefix| ==> !IsDigit(prefix[k])
    requires |suffix| == 0 || !IsDigit(suffix[0])
    ensures ParseSummary(prefix + Render(p) + suffix) == Ok(p)
  {
    var s := prefix + Render(p) + suffix;
    var m := RenderedOccurrence(prefix, p, suffix);
    forall i | 0 <= i < |prefix| ensures MatchAt(s, i).None? {
      assert s[i] == prefix[i];
    }
    MatchAtFindsOccurrence(s, m);
    SpanIsRunEnd(s, m.third, m.stop, IsDigit);
    SearchFindsFirst(s, |prefix|);
    GroupsOfRendered(s, m, p);
  }

  /** Where the pattern occurs in a rendered summary. */
  lemma RenderedOccurrence(prefix: string, p: PageSummary, suffix: string) returns (m: Match)
    requires |suffix| == 0 || !IsDigit(suffix[0])
    ensures var s := prefix + Render(p) + suffix;
      && Occurs(s, m) && Greedy(s, m) && m.pos == |prefix|
      && s[..|prefix|] == prefix
      && s[m.pos..m.dash] == Dec(p.first)
      && s[m.dash + 1..m.gap] == Dec(p.last)
      && s[m.third..m.stop] == Dec(p.total)
  {
    var A, B, C := Dec(p.first), Dec(p.last), Dec(p.total);
    RenderedLayout(prefix, A, B, C, suffix);
    m := LayoutMatch(prefix + Render(p) + suffix, |prefix|, A, B, C, suffix);
  }

  /** The match a laid-out summary gives, stated on the text alone. */
  lemma LayoutMatch(s: string, pos: nat, A: string, B: string, C: string, suffix: string) returns (m: Match)
    requires |A| > 0 && |B| > 0 && |C| > 0 && AllDigits(A) && AllDigits(B) && AllDigits(C)
    requires |suffix| == 0 || !IsDigit(suffix[0])
    requires |s| == pos + |A| + |B| + |C| + 5 + |suffix|
    requires s[pos..pos + |A|] == A
    requires s[pos + |A|] == '-'
    requires s[pos + |A| + 1..pos + |A| + 1 + |B|] == B
    requires s[pos + |A| + 1 + |B|] == ' '
    requires s[pos + |A| + |B| + 2] == 'o' && s[pos + |A| + |B| + 3] == 'f'
    requires s[pos + |A| + |B| + 4] == ' '
    requires s[pos + |A| + |B| + 5..pos + |A| + |B| + 5 + |C|] == C
    requires s[pos + |A| + |B| + 5 + |C|..] == suffix
    ensures Occurs(s, m) && Greedy(s, m) && m.pos == pos
    ensures s[m.pos..m.dash] == A && s[m.dash + 1..m.gap] == B && s[m.third..m.stop] == C
  {
    m := Match(pos, pos + |A|, pos + |A| + 1 + |B|, pos + |A| + 1 + |B| + 1,
               pos + |A| + |B| + 5, pos + |A| + |B| + 5 + |C|);
    OccursFromSlices(s, m);
    if m.stop < |s| {
      assert s[m.stop] == s[m.stop..][0] == suffix[0];
    }
  }

  /** An occurrence whose digit groups are read off as slices and whose
      whitespace runs are single spaces. */
  lemma OccursFromSlices(s: string, m: Match)
    requires m.pos < m.dash && m.dash + 1 < m.gap && m.ofAt == m.gap + 1
    requires m.third == m.ofAt + 3 && m.third < m.stop <= |s|
    requires AllDigits(s[m.pos..m.dash]) && s[m.dash] == '-' && AllDigits(s[m.dash + 1..m.gap])
    requires s[m.gap] == ' ' && s[m.ofAt] == 'o' && s[m.ofAt + 1] == 'f' && s[m.ofAt + 2] == ' '
    requires AllDigits(s[m.third..m.stop])
    ensures Occurs(s, m)
  {
    SliceDigits(s, m.pos, m.dash);
    SliceDigits(s, m.dash + 1, m.gap);
    SliceDigits(s, m.third, m.stop);
  }

  /** The characters of an all-digit slice are digits. */
  lemma SliceDigits(s: string, i: nat, j: nat)
    requires i <= j <= |s| && AllDigits(s[i..j])
    ensures forall k :: i <= k < j ==> IsDigit(s[k])
  {
    forall k | i <= k < j ensures IsDigit(s[k]) {
      assert s[i..j][k - i] == s[k];
    }
  }

  lemma GroupsOfRendered(s: string, m: Match, p: PageSummary)
    requires Occurs(s, m)
    requires s[m.pos..m.dash] == Dec(p.first)
    requires s[m.dash + 1..m.gap] == Dec(p.last)
    requires s[m.third..m.stop] == Dec(p.total)
    ensures Groups(s, m) == p
  {
    NatOfDec(p.first);
    NatOfDec(p.last);
    NatOfDec(p.total);
    assert Groups(s, m) == PageSummary(NatOf(Dec(p.first)), NatOf(Dec(p.last)), NatOf(Dec(p.total)));
  }

  /** Where the pieces of a rendered summary fall. */
  lemma RenderedLayout(prefix: string, A: string, B: string, C: string, suffix: string)
    ensures var s := prefix + (A + "-" + B + " of " + C) + suffix;
      var pos := |prefix|;
      && |s| == pos + |A| + |B| + |C| + 5 + |suffix|
      && s[..pos] == prefix
      && s[pos..pos + |A|] == A
      && s[pos + |A|] == '-'
      && s[pos + |A| + 1..pos + |A| + 1 + |B|] == B
      && s[pos + |A| + 1 + |B|] == ' '
      && s[pos + |A| + |B| + 2] == 'o' && s[pos + |A| + |B| + 3] == 'f'
      && s[pos + |A| + |B| + 4] == ' '
      && s[pos + |A| + |B| + 5..pos + |A| + |B| + 5 + |C|] == C
      && s[pos + |A| + |B| + 5 + |C|..] == suffix
  {
  }

  /** The footer text the source's comment shows. */
  lemma ShowingExample()
    ensures ParseSummary("Showing 21-30 of 43") == Ok(PageSummary(21, 30, 43))
  {
    var p := PageSummary(21, 30, 43);
    assert Dec(21) == "21" && Dec(30) == "30" && Dec(43) == "43";
    assert Render(p) == "21-30 of 43";
    assert "Showing 21-30 of 43" == "Showing " + Render(p) + "";
    ParseRendered("Showing ", p, "");
  }
}

=== FILE: text.dfy ===
/** Character classes, decimal rendering and whitespace trimming, restricted
    to ASCII: the digits of Python's `\d` and `int()`, the whitespace of
    Python's `\s` and `str.strip()`, and the `%d` / `%0Nd` renderings. */
module Text {

  /** An ASCII decimal digit. */
  predicate IsDigit(c: char) {
    '0' <= c <= '9'
  }

  /** ASCII whitespace as Python's `str.isspace` sees it: space, the
      control characters 9..13 and the separators 28..31. */
  predicate IsSpace(c: char) {
    c == ' ' || 9 <= c as int <= 13 || 28 <= c as int <= 31
  }

  predicate AllDigits(s: string) {
    forall i :: 0 <= i < |s| ==> IsDigit(s[i])
  }

  predicate AllSpace(s: string) {
    forall i :: 0 <= i < |s| ==> IsSpace(s[i])
  }

  function DigitChar(d: nat): (c: char)
    requires d < 10
    ensures IsDigit(c) && c as int - '0' as int == d
  {
    ('0' as int + d) as char
  }

  function DigitValue(c: char): nat
    requires IsDigit(c)
  {
    c as int - '0' as int
  }

  function Pow10(n: nat): (p: nat)
    ensures p >= 1
  {
    if n == 0 then 1 else 10 * Pow10(n - 1)
  }

  /** Python `str(n)` for a non-negative integer: no sign, no padding. */
  function Dec(n: nat): (s: string)
    ensures |s| >= 1 && AllDigits(s)
    ensures n > 0 ==> s[0] != '0'
  {
    if n < 10 then [DigitChar(n)] else Dec(n / 10) + [DigitChar(n % 10)]
  }

  /** The value of a digit string, as Python's `int()` reads it
      (leading zeros allowed, the empty string read as 0). */
  function NatOf(s: string): nat
    requires AllDigits(s)
  {
    if |s| == 0 then 0 else 10 * NatOf(s[..|s| - 1]) + DigitValue(s[|s| - 1])
  }

  function Zeros(k: nat): (z: string)
    ensures |z| == k && AllDigits(z)
  {
    if k == 0 then [] else "0" + Zeros(k - 1)
  }

  /** Python `"%0*d" % (w, n)`: `str(n)` left-padded with zeros to width `w`. */
  function Pad(n: nat, w: nat): (s: string)
    ensures AllDigits(s)
    ensures |s| == if |Dec(n)| <= w then w else |Dec(n)|
  {
    if |Dec(n)| < w then Zeros(w - |Dec(n)|) + Dec(n) else Dec(n)
  }

  /** Reading back what `Dec` wrote gives the number. */
  lemma {:induction false} NatOfDec(n: nat)
    ensures NatOf(Dec(n)) == n
  {
    if n >= 10 {
      var s := Dec(n);
      assert s[..|s| - 1] == Dec(n / 10);
      NatOfDec(n / 10);
    }
  }

  /** Leading zeros do not change the value of a digit string. */
  lemma {:induction false} NatOfZerosPrefix(k: nat, s: string)
    requires AllDigits(s)
    ensures AllDigits(Zeros(k) + s) && NatOf(Zeros(k) + s) == NatOf(s)
  {
    var t := Zeros(k) + s;
    assert AllDigits(t) by {
      forall i | 0 <= i < |t| ensures IsDigit(t[i]) {
        if i < k { assert t[i] == Zeros(k)[i]; } else { assert t[i] == s[i - k]; }
      }
    }
    if |s| == 0 {
      assert t == Zeros(k);
      NatOfZeros(k);
    } else {
      assert t[..|t| - 1] == Zeros(k) + s[..|s| - 1];
      NatOfZerosPrefix(k, s[..|s| - 1]);
    }
  }

  lemma {:induction false} NatOfZeros(k: nat)
    ensures NatOf(Zeros(k)) == 0
  {
    if k > 0 {
      var z := Zeros(k);
      assert z[..k - 1] == Zeros(k - 1) by {
        assert z == "0" + Zeros(k - 1);
        if k > 1 {
          assert Zeros(k - 1) == "0" + Zeros(k - 2);
          assert z[..k - 1] == "0" + Zeros(k - 1)[..k - 2];
          LastZero(k - 1);
        }
      }
      NatOfZeros(k - 1);
    }
  }

  lemma {:induction false} LastZero(k: nat)
    requires k >= 1
    ensures Zeros(k)[..k - 1] == Zeros(k - 1) && Zeros(k)[k - 1] == '0'
  {
    if k > 1 {
      LastZero(k - 1);
      assert Zeros(k) == "0" + Zeros(k - 1);
    }
  }

  /** A number below `10^w` is written in at most `w` digits. */
  lemma {:induction false} DecLength(n: nat, w: nat)
    requires 1 <= w && n < Pow10(w)
    ensures |Dec(n)| <= w
  {
    if n >= 10 {
      assert n / 10 < Pow10(w - 1);
      DecLength(n / 10, w - 1);
    }
  }

  /** A zero-padded field reads back as its number. */
  lemma NatOfPad(n: nat, w: nat)
    ensures NatOf(Pad(n, w)) == n
  {
    var d := Dec(n);
    NatOfDec(n);
    if |d| < w {
      NatOfZerosPrefix(w - |d|, d);
      assert Pad(n, w) == Zeros(w - |d|) + d;
    } else {
      assert Pad(n, w) == d;
    }
  }

  /** Python `s.lstrip()`: the longest suffix not starting with whitespace. */
  function TrimStart(s: string): (r: string)
    ensures |r| <= |s| && r == s[|s| - |r|..]
    ensures AllSpace(s[..|s| - |r|])
    ensures |r| > 0 ==> !IsSpace(r[0])
  {
    if |s| > 0 && IsSpace(s[0]) then TrimStart(s[1..]) else s
  }

  /** Python `s.rstrip()`: the longest prefix not ending with whitespace. */
  function TrimEnd(s: string): (r: string)
    ensures |r| <= |s| && r == s[..|r|]
    ensures AllSpace(s[|r|..])
    ensures |r| > 0 ==> !IsSpace(r[|r| - 1])
  {
    if |s| > 0 && IsSpace(s[|s| - 1]) then TrimEnd(s[..|s| - 1]) else s
  }

  /** `t` has no whitespace at either end, as `strip()` leaves it. */
  predicate Unpadded(t: string) {
    |t| > 0 ==> !IsSpace(t[0]) && !IsSpace(t[|t| - 1])
  }

  /** Python `s.strip()`: whitespace removed from both ends, one character
      at a time. */
  function Strip(s: string): (r: string)
    ensures |r| <= |s| && Unpadded(r)
  {
    if |s| > 0 && IsSpace(s[0]) then Strip(s[1..])
    else if |s| > 0 && IsSpace(s[|s| - 1]) then Strip(s[..|s| - 1])
    else s
  }

  /** One step of `Strip`: drop a leading space, else a trailing one. */
  lemma StripStep(s: string)
    ensures |s| > 0 && IsSpace(s[0]) ==> Strip(s) == Strip(s[1..])
    ensures |s| > 0 && !IsSpace(s[0]) && IsSpace(s[|s| - 1]) ==> Strip(s) == Strip(s[..|s| - 1])
    ensures Unpadded(s) ==> Strip(s) == s
  {
  }

  /** One step of `TrimStart` and `TrimEnd`, and where they stop. */
  lemma TrimStep(s: string)
    ensures |s| > 0 && IsSpace(s[0]) ==> TrimStart(s) == TrimStart(s[1..])
    ensures |s| > 0 && IsSpace(s[|s| - 1]) ==> TrimEnd(s) == TrimEnd(s[..|s| - 1])
    ensures (|s| == 0 || !IsSpace(s[0])) ==> TrimStart(s) == s
    ensures (|s| == 0 || !IsSpace(s[|s| - 1])) ==> TrimEnd(s) == s
  {
  }

  /** `strip()` is `lstrip()` followed by `rstrip()`. */
  lemma {:induction false} StripTrims(s: string)
    ensures Strip(s) == TrimEnd(TrimStart(s))
    decreases |s|
  {
    StripStep(s);
    TrimStep(s);
    if |s| > 0 && IsSpace(s[0]) {
      StripTrims(s[1..]);
    } else if |s| > 0 && IsSpace(s[|s| - 1]) {
      var init := s[..|s| - 1];
      StripTrims(init);
      TrimStep(init);
      assert init[0] == s[0];
    }
  }

  /** Every string is whitespace, then its stripped text, then whitespace. */
  lemma {:induction false} StripSplits(s: string) returns (lead: string, trail: string)
    ensures AllSpace(lead) && AllSpace(trail)
    ensures s == lead + Strip(s) + trail
    decreases |s|
  {
    StripStep(s);
    if |s| > 0 && IsSpace(s[0]) {
      var l, t := StripSplits(s[1..]);
      lead, trail := [s[0]] + l, t;
      SplitLead(s, l, t);
    } else if |s| > 0 && IsSpace(s[|s| - 1]) {
      var l, t := StripSplits(s[..|s| - 1]);
      lead, trail := l, t + [s[|s| - 1]];
      SplitTrail(s, l, t);
    } else {
      lead, trail := [], [];
      assert s == [] + s + [];
    }
  }

  lemma SplitLead(s: string, l: string, t: string)
    requires |s| > 0 && IsSpace(s[0]) && AllSpace(l)
    requires s[1..] == l + Strip(s[1..]) + t
    ensures AllSpace([s[0]] + l)
    ensures s == [s[0]] + l + Strip(s[1..]) + t
  {
    assert s == [s[0]] + s[1..];
  }

  lemma SplitTrail(s: string, l: string, t: string)
    requires |s| > 0 && IsSpace(s[|s| - 1]) && AllSpace(t)
    requires s[..|s| - 1] == l + Strip(s[..|s| - 1]) + t
    ensures AllSpace(t + [s[|s| - 1]])
    ensures s == l + Strip(s[..|s| - 1]) + (t + [s[|s| - 1]])
  {
    assert s == s[..|s| - 1] + [s[|s| - 1]];
  }

  /** Stripping removes exactly the surrounding whitespace: a text that has
      no whitespace at either end comes back unchanged from any padding. */
  lemma {:induction false} StripPadded(lead: string, t: string, trail: string)
    requires AllSpace(lead) && AllSpace(trail) && Unpadded(t)
    ensures Strip(lead + t + trail) == t
    decreases |lead| + |trail|
  {
    if |lead| > 0 {
      PadLead(lead, t, trail);
      StripPadded(lead[1..], t, trail);
    } else if |trail| > 0 && |t| == 0 {
      PadTrailOnly(lead, t, trail);
      StripPadded([], t, trail[1..]);
    } else if |trail| > 0 {
      PadTrail(t, trail);
      assert lead + t + trail == t + trail;
      assert [] + t + trail[..|trail| - 1] == t + trail[..|trail| - 1];
      StripPadded([], t, trail[..|trail| - 1]);
    } else {
      assert lead + t + trail == t;
      StripStep(t);
    }
  }

  lemma PadLead(lead: string, t: string, trail: string)
    requires |lead| > 0 && AllSpace(lead)
    ensures AllSpace(lead[1..])
    ensures Strip(lead + t + trail) == Strip(lead[1..] + t + trail)
  {
    var s := lead + t + trail;
    assert s[0] == lead[0];
    assert s[1..] == lead[1..] + t + trail;
    StripStep(s);
  }

  lemma PadTrailOnly(lead: string, t: string, trail: string)
    requires |lead| == 0 && |t| == 0 && |trail| > 0 && AllSpace(trail)
    ensures AllSpace(trail[1..])
    ensures Strip(lead + t + trail) == Strip([] + t + trail[1..])
  {
    var s := lead + t + trail;
    assert s == trail;
    assert s[1..] == [] + t + trail[1..];
    StripStep(s);
  }

  lemma PadTrail(t: string, trail: string)
    requires |t| > 0 && Unpadded(t) && |trail| > 0 && AllSpace(trail)
    ensures AllSpace(trail[..|trail| - 1])
    ensures Strip(t + trail) == Strip(t + trail[..|trail| - 1])
  {
    var s := t + trail;
    assert 0 < |s| && !IsSpace(s[0]) && IsSpace(s[|s| - 1]) by {
      assert s[0] == t[0] && s[|s| - 1] == trail[|trail| - 1];
    }
    assert s[..|s| - 1] == t + trail[..|trail| - 1];
    StripDropLast(s);
  }

  lemma StripDropLast(s: string)
    requires 0 < |s| && !IsSpace(s[0]) && IsSpace(s[|s| - 1])
    ensures Strip(s) == Strip(s[..|s| - 1])
  {
  }

  /** Stripping twice is stripping once. */
  lemma StripIdempotent(s: string)
    ensures Strip(Strip(s)) == Strip(s)
  {
    var r := Strip(s);
    assert r == [] + r + [];
    StripPadded([], r, []);
  }

  /** The end of the longest run of characters satisfying `p` that starts
      at `i`: how far a greedy `p+` (or `p*`) reaches from there. */
  function Span(s: string, i: nat, p: char -> bool): (j: nat)
    requires i <= |s|
    ensures i <= j <= |s|
    ensures forall k :: i <= k < j ==> p(s[k])
    ensures j == |s| || !p(s[j])
    decreases |s| - i
  {
    if i < |s| && p(s[i]) then Span(s, i + 1, p) else i
  }

  /** A run of `p` characters that cannot be extended is the one `Span` finds. */
  lemma {:induction false} SpanIsRunEnd(s: string, i: nat, j: nat, p: char -> bool)
    requires i <= j <= |s|
    requires forall k :: i <= k < j ==> p(s[k])
    requires j == |s| || !p(s[j])
    ensures Span(s, i, p) == j
    decreases j - i
  {
    if i < j {
      SpanIsRunEnd(s, i + 1, j, p);
    }
  }

  /** The part of `s` before the first `c`, or all of `s` when there is none. */
  function TakeUntil(s: string, c: char): (r: string)
    ensures |r| <= |s| && r == s[..|r|] && c !in r
    ensures |r| < |s| ==> s[|r|] == c
  {
    if |s| == 0 || s[0] == c then [] else [s[0]] + TakeUntil(s[1..], c)
  }

  lemma {:induction false} TakeUntilStopsAt(a: string, c: char, rest: string)
    requires c !in a
    ensures TakeUntil(a + [c] + rest, c) == a
  {
    if |a| > 0 {
      assert (a + [c] + rest)[1..] == a[1..] + [c] + rest;
      TakeUntilStopsAt(a[1..], c, rest);
    }
  }
}
